=== FILE: README.md ===
# news:fetch — a verified model of the VK/Zen news ingestion command

This project models the decision logic of the Laravel console command
`news:fetch` (`FetchSocialNews`, `pars.php`). The command reads one page of
posts from a VK community wall. It sends each post either to the Zen branch
(`processZenRepost`) or to the plain VK branch (`processVkPost`). Each branch
either skips the post or upserts one news record into the `News` table under
the key `(external_id, source)`. A record that an editor marked `is_manual` is
never overwritten.

The modules follow the command's structure:

- `wrappers.dfy` holds `Option`.
- `strings.dfy` holds the shared string helpers:
  - PHP `empty()` and truthiness;
  - the `\s` and `trim` character sets;
  - `mb_strpos` and `mb_strrpos`;
  - case-insensitive substring search;
  - integer interpolation.
- `normalizer.dfy` holds `cleanText`, `truncateText`, `normalizeZenUrl` and `cleanImageUrl`. Each fixed PCRE pattern is written out as a scanner with the same leftmost, greedy, global matching.
- `posts.dfy` describes a `wall.get` item as a `Post` datatype, with `Attachment = Link | Photo | Video | Other`.
- `search.dfy` holds the first-match search that every `foreach … return` of the command performs.
- `extractor.dfy` holds the extractors:
  - text from link attachments, and text from video or link attachments;
  - the link title and `generateTitle`;
  - `getFirstSentence`;
  - `extractBestImage`, as a function and as the loop the command runs.
- `classifier.dfy` holds:
  - `isZenRepost` and `getZenUrl`, with the search order of each;
  - the dispatch at lines 75-76;
  - the source-post loop of `processZenRepost`.
- `records.dfy` holds:
  - what each branch decides for a post (a skip reason, or a key and a record);
  - the manual-edit rule on the store;
  - the `VK_ERRORS` mapping of `handleVkError`.
- `fetcher.dfy` holds the class `NewsFetcher`. Its `news` map stands for the table. Its methods are `ProcessZenRepost`, `ProcessVkPost` and `FetchVk`, which loops over the page. Each method is proved equal to the decision functions of `records.dfy`.
- `scenarios.dfy` holds whole-post examples: a plain post, a post linking a Zen article, an advertising post, and the invalid-token error.

Where the documented intent of the system and the code disagree, the model
follows the code:

- **Source post.** The documented intent makes the source post the post itself when the post matches directly. The code (pars.php:133-141) takes the first Zen repost in `copy_history` whenever there is one (`Classifier.ZenSource`).
- **Recursion depth.** The documented intent asks for a recursion-depth ceiling. The code has none, and neither has the model: recursion follows the finite repost tree.
- **First sentence.** The documented intent ends the first sentence at "the first `.` at position > 10". The code takes the first `.` and accepts it only if that `.` lies beyond index 10 (pars.php:418-419). A `.` at index 10 or earlier therefore sends the search to the newline, even when a later `.` exists.
- **Title of "Hello world. Extra.".** The documented intent gives the title "Hello world." for this post. Under the code, that first sentence has 12 characters, which is not more than 20. The post has no video, so the title is the whole text (`Scenarios.PlainPostRecord`).
- **Tracking parameters.** The documented intent is that URLs differing only in tracking parameters normalize alike. The code removes a tracking parameter only when it directly follows a `?` (pars.php:259). `…?a=1&utm_source=x` keeps its `utm_source`.
- **Attachment text.** The documented intent orders the attachment text of a VK post as video first, then link. The code walks the attachments once, in order, and the first video or link with text wins, whatever its type (pars.php:436-457).
- **Zen lookup.** The documented store contract looks records up by id and source. The Zen branch of the code looks up by `external_id` alone (pars.php:182). See "Left out".

## Model

| member | source | states |
|---|---|---|
| `Strings.IndexOf` | pars.php:418 | `mb_strpos`: the index holds the character and no earlier index does; none when the character is absent |
| `Strings.LastIndexOf` | pars.php:582 | `mb_strrpos`: the index holds the character and no later index does; none when the character is absent |
| `Strings.Decimal` | pars.php:176 | an integer interpolated into a string is non-empty; it starts with `-` iff the integer is negative, and the rest is all digits |
| `Strings.DigitsRoundTrip` | pars.php:176 | reading back the decimal digits of a natural number gives that number |
| `Strings.DecimalRoundTrip` | pars.php:176 | reading back the rendering of an integer gives that integer |
| `Strings.DecimalInjective` | pars.php:176 | distinct integers render differently, so distinct post ids give distinct keys |
| `Normalizer.MentionAt` | pars.php:513 | a match of `\[([^\|\]]+)\|([^\]]+)\]` at the start: a non-empty target holding neither `|` nor `]`, then `|`, a non-empty name without `]`, and the closing `]` |
| `Normalizer.MentionAtFindsSpan` | pars.php:513 | every mention at the start is found, with its own bounds, so no match is reported only when no mention starts there |
| `Normalizer.RewriteMentions` | pars.php:513 | the rewrite never lengthens the text and introduces no character |
| `Normalizer.RewriteKeepsMentionFree` | pars.php:513 | text in which no mention starts at any position comes back unchanged |
| `Normalizer.RewriteWithoutBar` | pars.php:513 | text without `|` comes back unchanged, so a `[` that opens no mention, as in `[abc`, is kept |
| `Normalizer.MentionBecomesName` | pars.php:513 | the mention `[target|Name]` followed by any text is rewritten to `Name` followed by the rewritten text |
| `Normalizer.MentionAfterPlainText` | pars.php:513 | text without `[` before a mention is kept as it is, and the mention becomes its name |
| `Normalizer.RemoveBrackets` | pars.php:516 | no `[` or `]` remains, no other character is introduced, and bracket-free text is unchanged |
| `Normalizer.RemoveBracketsKeepsText` | pars.php:516 | the result is the input with exactly the `[` and `]` characters removed, the others kept in order |
| `Normalizer.RemoveBracketsAppend` | pars.php:516 | bracket removal of a concatenation is the concatenation of the removals |
| `Normalizer.CollapseWhitespace` | pars.php:522 | the result is empty iff the input is; its only whitespace is single spaces, never two in a row; no character other than a space is introduced |
| `Normalizer.CollapseKeepsText` | pars.php:522 | the collapse keeps every character that is not whitespace, in order |
| `Normalizer.CollapseKeepsCleanPrefix` | pars.php:522 | text whose only whitespace is single spaces, not at its end, passes through the collapse unchanged |
| `Normalizer.CollapseSplitsBeforeWord` | pars.php:522 | the collapse of a concatenation splits at a non-whitespace character |
| `Normalizer.TrimBounds` | pars.php:527 | `trim` removes exactly the leading and trailing runs of trim characters |
| `Normalizer.Trim` | pars.php:527 | the result starts and ends with no trim character, and text that already does is unchanged |
| `Normalizer.TrimKeepsText` | pars.php:527 | trimming keeps every character that is not a trim character, in order |
| `Normalizer.TrimKeepsInnerWord` | pars.php:527 | a word that neither starts nor ends with a trim character survives the trim |
| `Normalizer.CleanText` | pars.php:510-528 | the cleaned text has no brackets, no whitespace except single spaces, and no trim character at either end |
| `Normalizer.CleanTextFixpoint` | pars.php:510-528 | text that already has those properties is returned unchanged |
| `Normalizer.CleanTextIdempotent` | pars.php:510-528 | cleaning twice gives the same text as cleaning once |
| `Normalizer.CleanTextKeepsText` | pars.php:510-528 | for text without brackets, cleaning removes only whitespace and trim characters: every other character survives, in order |
| `Normalizer.MentionNameSurvives` | pars.php:510-528 | the display name of a mention that follows text without `[` occurs in the cleaned text, whatever follows the mention |
| `Normalizer.Truncate` | pars.php:575-588 | text of at most `n` characters is returned unchanged. Longer text becomes a prefix of at most `n` characters plus `...`. The prefix is all `n` characters when they hold no space; otherwise it ends just before the last space among them |
| `Normalizer.TrackingTailEnd` | pars.php:259 | a match of the deny-list pattern after `?` ends at the end of the text or at a newline, where `.*` stops |
| `Normalizer.TrackingTailIff` | pars.php:259 | a tracking tail starts at a `?` exactly when `share_to`, `from`, `cl4url` or `persist_` follows it in any case, or `utm_`, a non-empty name, `=` and a character other than `&` |
| `Normalizer.StripTracking` | pars.php:259 | removing tracking tails never lengthens the URL |
| `Normalizer.StripKeepsOtherParam` | pars.php:259 | a `?` followed by a parameter off the deny list is kept, and stripping goes on after it |
| `Normalizer.StripTrackingPlainPrefix` | pars.php:259 | text without `?` is never cut: stripping works on the rest only |
| `Normalizer.ReplaceMirror` | pars.php:262 | replacing `dzen.ru` by the longer `zen.yandex.ru` never shortens the URL |
| `Normalizer.ReplaceMirrorPlainPrefix` | pars.php:262 | text without `d` is copied unchanged in front of the replaced rest |
| `Normalizer.ReplaceMirrorWithoutHost` | pars.php:262 | text without `dzen.ru` is unchanged by the host replacement |
| `Normalizer.NoMirrorAfterReplace` | pars.php:262 | after the replacement no `dzen.ru` is left, including one formed across a replaced host |
| `Normalizer.NormalizeZenUrl` | pars.php:256-268 | the normalized URL never ends in `?`, `&` or `/` and never contains `dzen.ru` |
| `Normalizer.UtmIsTrackingTail` | pars.php:259 | `?utm_<name>=<value>` with a non-empty name without `=` and a value not starting with `&` is a tracking tail |
| `Normalizer.NormalizeStripped` | pars.php:256-268 | once tracking tails are stripped, a URL without `dzen.ru` and without a trailing `?`, `&` or `/` is the normalized URL |
| `Normalizer.NormalizeKeepsPlainQuery` | pars.php:256-268 | a URL whose query starts with a parameter off the deny list, without `dzen.ru` or a trailing `?`, `&` or `/`, normalizes to itself |
| `Normalizer.NormalizeIgnoresTrackingTail` | pars.php:256-268 | a URL without `?` and the same URL followed by a one-line tracking tail normalize to the same string |
| `Normalizer.NormalizeSharedMirrorPath` | pars.php:256-268 | `https://dzen.ru<path>?utm_source=share` normalizes to `https://zen.yandex.ru<path>`, for any path without `?` or `dzen.ru` that does not end in `?`, `&` or `/` |
| `Normalizer.NormalizeSharedMirrorLink` | pars.php:256-268 | `https://dzen.ru/media/id/abc?utm_source=share` normalizes to `https://zen.yandex.ru/media/id/abc` |
| `Normalizer.NormalizeTwiceDiffers` | pars.php:256-268 | `?utm_a?from=&` + newline + `=b` normalizes to `?utm_a` + newline + `=b`, which normalizes to "": the normalization is not idempotent on URLs holding a newline |
| `Normalizer.DropFromBu` | pars.php:559 | removing `&from=bu&cs=…` never lengthens the URL and leaves a URL without `&` unchanged |
| `Normalizer.CollapseAsParam` | pars.php:560 | replacing `?as=…` by `?` never lengthens the URL and leaves a URL without `?` unchanged |
| `Normalizer.DropFinalQuestionMark` | pars.php:561 | removing a final `?` never lengthens the URL and leaves a URL without `?` unchanged |
| `Normalizer.ParseUrl` | pars.php:565-568 | scheme, host and path never contain `?` |
| `Normalizer.CleanImageUrl` | pars.php:554-573 | the result is null iff the URL is falsy. A result over 500 characters has no query. A URL of at most 500 characters is never lengthened, and without `?` or `&` it comes back unchanged |
| `Normalizer.DropFromBuPlainPrefix` | pars.php:559 | text without `&` in front of the rest is kept, and the removal acts on the rest only |
| `Normalizer.DropFromBuRemoves` | pars.php:559 | `&from=bu&cs=` followed by a non-empty value is cut out up to the next `&`; the text before it is kept |
| `Normalizer.DropFromBuAtTag` | pars.php:559 | at the head of the text, `&from=bu&cs=` and its value are cut up to the next `&` |
| `Normalizer.DropFromBuWithoutTag` | pars.php:559 | a URL without `&from=bu&cs=` is kept whole, other `&` parameters included |
| `Normalizer.CollapseAsPlainPrefix` | pars.php:560 | text without `?` in front of the rest is kept, and the rewrite acts on the rest only |
| `Normalizer.CollapseAsRewrites` | pars.php:560 | `?as=` followed by a non-empty value becomes a lone `?`, up to the next `&`; the text before it is kept |
| `Normalizer.CollapseAsAtTag` | pars.php:560 | at the head of the text, `?as=` and its value become `?`, up to the next `&` |
| `Normalizer.CollapseAsWithoutTag` | pars.php:560 | a URL without `?as=` is kept whole |
| `Normalizer.PlainQueryKept` | pars.php:560 | a query that does not begin with `as=` is not rewritten |
| `Normalizer.DropFinalQuestionMarkEnds` | pars.php:561 | a final `?` is removed, and so is a `?` just before a final newline (PCRE's `$`) |
| `Normalizer.DropFinalQuestionMarkKeeps` | pars.php:561 | a URL ending in neither `?` nor a newline is kept |
| `Normalizer.PlainQueryUrlKept` | pars.php:559-561 | the three VK-specific replacements keep a URL whose only query is one plain, non-`as=` parameter |
| `Normalizer.HostOf` | pars.php:565-568 | the host is taken from the authority and holds none of its other characters |
| `Normalizer.SplitAtDelimiters` | pars.php:565-568 | the stand-in for `parse_url` splits at the first `:`, `/`, `?` or `#` after the scheme, after the authority and after the path |
| `Normalizer.ParseUrlAt` | pars.php:565-568 | for a valid scheme (letters, digits, `+`, `.`, `-`), a non-empty authority without user or port, and no control characters, the scheme is the text before `://`, the host the authority, and the path runs to the first `?` or `#` |
| `Normalizer.ParseAbsoluteUrl` | pars.php:565-568 | `scheme://host/path?query` with a valid scheme, a non-empty host and no control characters is split into exactly that scheme, host and path |
| `Normalizer.LongUrlKeepsBase` | pars.php:563-569 | a URL of that form over 500 characters comes back as exactly `scheme://host/path`, its query dropped |
| `Normalizer.ShortUrlDropsAsParam` | pars.php:554-573 | a short URL whose only query is `?as=<value>` comes back as its base, with no `?` left |
| `Normalizer.ShortUrlKeepsPlainQuery` | pars.php:554-573 | a short URL whose only query is one parameter other than `as=`, without `&`, comes back unchanged, query included |
| `Search.FirstWhere` | pars.php:274-288 | the `foreach … return` scan: the index found is the first passing the test, and none is found iff no element passes |
| `Extractor.TextFromLinkAttachment` | pars.php:270-289 | the cleaned text of the first link with a title or description, title first; "" when no link has one |
| `Extractor.TextFromAttachments` | pars.php:432-460 | the cleaned text of the first video or link with a description or title, description first; "" when none has one |
| `Extractor.TitleFromLinkAttachment` | pars.php:462-476 | the cleaned title of the first link whose raw title has more than 15 characters; null iff there is no such link |
| `Extractor.FirstSentence` | pars.php:415-430 | always a prefix of the text. It runs through the first `.` when that `.` lies beyond index 10. Otherwise it stops before the first newline when that lies beyond index 10. Otherwise it is the whole text |
| `Extractor.GenerateTitle` | pars.php:379-413 | the priority order: the first link title longer than 15 characters once cleaned; else a first sentence of 21 to 89 characters; else the first non-empty video title, uncleaned; else the text cut to 100 characters |
| `Extractor.GenerateTitleNonEmpty` | pars.php:379-413 | a non-empty text always gets a non-empty title |
| `Extractor.GeneratedTitleBounded` | pars.php:397-412 | without a usable link or video title, the title has at most 103 characters |
| `Extractor.ImageSizes` | pars.php:484-504 | only video, photo and link attachments offer a size list; a link offers one only when it is non-empty |
| `Extractor.FirstWidest` | pars.php:486-487 | the first entry of greatest width, which is what a stable sort by descending width puts first |
| `Extractor.BestImage` | pars.php:478-508 | only the first attachment offering a size list counts; the url of its first widest entry, null for an empty list; null when there are no attachments or none offers a list |
| `Extractor.WidestEntry` | pars.php:493-494 | the loop finds the first entry of greatest width |
| `Extractor.ExtractBestImage` | pars.php:478-508 | the attachment loop returns exactly `BestImage` |
| `Classifier.UrlEndAt` | pars.php:107 | a match of `https?://[^\s]+` exists at a position exactly when a scheme starts there and is followed by a non-whitespace character; the match is the scheme and a non-empty run of non-whitespace that stops at whitespace or the end |
| `Classifier.ScanReaches` | pars.php:107 | scanning from any earlier position finds the match that starts at a word start |
| `Classifier.UrlFound` | pars.php:107 | a URL standing as its own whitespace-delimited word of the text is among the matches |
| `Classifier.TextZenUrlMakesZen` | pars.php:105-112 | such a URL naming Zen makes the post Zen content |
| `Classifier.UrlsFrom` | pars.php:107 | every URL found occurs in the scanned part of the text, starts with `http://` or `https://` and holds no whitespace |
| `Classifier.TextUrls` | pars.php:107 | every URL taken from a text occurs in that text, starts with `http://` or `https://` and holds no whitespace |
| `Classifier.IsZenUrl` | pars.php:98 | a URL naming a Zen host has at least 7 characters |
| `Classifier.ExactZenHostIsZen` | pars.php:98 | a URL holding `zen.yandex` or `dzen.ru` is a Zen URL |
| `Classifier.NoUrlsWithoutColon` | pars.php:107 | a text without `:` holds no URL |
| `Classifier.IsZenRepost` | pars.php:91-125 | a post is Zen content iff some post of its repost tree, at any depth, has a Zen link attachment or a non-empty text holding a Zen URL |
| `Classifier.IsZenDispatch` | pars.php:75-76 | the dispatch condition equals `isZenRepost(post)`; the test of the first repost adds nothing |
| `Classifier.ZenUrl` | pars.php:222-254 | a result is only found for Zen content and is always a normalized URL. The first Zen link attachment decides. Without one, the first Zen URL of the non-empty text decides |
| `Classifier.ZenUrlInReposts` | pars.php:245-251 | a repost result is truthy, normalized, and found only when some later repost is Zen content |
| `Classifier.RepostSearchFindsFirst` | pars.php:245-251 | the repost search returns the result of the first repost whose result is truthy |
| `Classifier.RepostSearchFindsNone` | pars.php:245-253 | the repost search returns null when no repost result is truthy |
| `Classifier.ZenUrlFromReposts` | pars.php:222-254 | with no Zen link and no Zen URL in the text, `getZenUrl` is the first truthy repost result, or null |
| `Classifier.NoZenNoUrl` | pars.php:222-254 | `getZenUrl` is null whenever `isZenRepost` is false |
| `Classifier.ZenSource` | pars.php:133-141 | the source post is the first repost that is Zen content, else the post itself |
| `Classifier.ZenSourceIsZen` | pars.php:133-141 | the source post of Zen content is itself Zen content |
| `Classifier.SelectSourcePost` | pars.php:133-141 | the loop with `break` yields exactly `ZenSource` |
| `Classifier.RepostWrapperResolves` | pars.php:75-141 | a wrapper with no text or attachments, whose only repost carries a Zen link, goes to the Zen branch and takes its content from that repost |
| `Records.VkLink` | pars.php:176 | the permalink starts with `https://vk.com/wall` and contains no `z` |
| `Records.VkLinkNamesPost` | pars.php:176 | the permalink names its post: equal permalinks have equal owner ids and equal post ids |
| `Records.ZenContent` | pars.php:144-149 | the Zen content is clean: the source post's cleaned text, or the text of its first link when that is empty |
| `Records.ZenUrlInText` | pars.php:162-171 | the second search finds the first Zen URL of the non-empty text, normalized; null for empty text or no Zen URL |
| `Records.ZenLink` | pars.php:159-179 | the Zen link is truthy and has no `dzen.ru`: a truthy `getZenUrl`, else the truthy result of the second search, else the permalink of the fetched post |
| `Records.ZenExternalId` | pars.php:181 | a Zen id starts with `zen_` |
| `Records.ZenDecision` | pars.php:127-220 | skip iff the content is empty. Otherwise a `zen`, non-manual record carries the content, its excerpt, the title generated from the content and the source post, the source post's best image, the Zen link and the fetched post's date. It is keyed by `zen_` plus the hash of the link |
| `Records.VkContent` | pars.php:307-312 | the VK content is clean: the cleaned text, or the attachment text when that is empty |
| `Records.VkTitle` | pars.php:327-330 | a truthy link title, which is clean, else the generated title; a non-empty text always gets a non-empty title |
| `Records.VkDecision` | pars.php:291-377 | Zen content, ads and posts with neither content nor attachments are skipped, each for its reason. Any other post is written as a `vk`, non-manual record with the content, its title, the excerpt, the post's best image and the permalink, keyed by its id |
| `Records.Decide` | pars.php:75-82 | a Zen post goes to the Zen branch, every other post to the VK branch |
| `Records.ExternalIdsDisjoint` | pars.php:181 | Zen and VK records never share an external id, since a decimal id never starts with `zen_` |
| `Records.Commit` | pars.php:182-188 | a record marked manual is never changed, no key is removed, and no other key changes. A write to a key holding a manual record is skipped; any other write upserts the record |
| `Records.HandleVkError` | pars.php:530-545 | the message is `VK API Error [code]: ` plus the `VK_ERRORS` text, or plus `error_msg` for other codes; code 5, and only code 5, notifies the administrator |
| `Records.KnownCodeIgnoresUpstream` | pars.php:533 | for a code in `VK_ERRORS` the upstream message plays no part |
| `Fetcher.RunPosts` | pars.php:66-83 | a page yields one outcome per post |
| `Fetcher.RunKeepsManualRecords` | pars.php:66-83 | a run never removes a record and leaves every manual record as it was |
| `Fetcher.AdPostLeavesStore` | pars.php:300-304 | an ad outside the Zen branch leaves the store unchanged and is reported as an ad skip |
| `Fetcher.EmptyPostLeavesStore` | pars.php:314-318 | a VK post with no content and no attachments leaves the store unchanged |
| `Fetcher.FindZenLink` | pars.php:159-179 | the link search, with its second pass over the text, yields exactly `ZenLink` |
| `Fetcher.ScanForZenUrl` | pars.php:164-170 | the loop stops at the first Zen URL of the list, or runs off its end when there is none |
| `Fetcher.NewsFetcher.constructor` | pars.php:10-13 | the store starts as given |
| `Fetcher.NewsFetcher.Upsert` | pars.php:352-371 | the store and the outcome are those of `Commit` for the write |
| `Fetcher.NewsFetcher.ProcessZenRepost` | pars.php:127-220 | the new store and the outcome are those of `Commit` on `ZenDecision` |
| `Fetcher.NewsFetcher.ProcessVkPost` | pars.php:291-377 | the new store and the outcome are those of `Commit` on `VkDecision` |
| `Fetcher.NewsFetcher.HandlePost` | pars.php:75-82 | the new store and the outcome are those of `Commit` on `Decide`: the Zen branch for Zen content, the VK branch otherwise |
| `Fetcher.NewsFetcher.FetchVk` | pars.php:33-89 | a failed request or an error envelope leaves the store unchanged and is reported; a page is handled post by post as `RunPosts` says |
| `Scenarios.PlainTextRecord` | pars.php:291-377 | a clean plain post without URL, attachments or a title-length first sentence is stored with its text as title, content and excerpt |
| `Scenarios.PlainPostRecord` | pars.php:379-430 | "Hello world. Extra." is stored with the whole text as title, content and excerpt |
| `Scenarios.ZenLinkRecord` | pars.php:127-220 | a post whose only attachment is a Zen link with a long clean title becomes a `zen` record with that title and the normalized link |
| `Scenarios.ZenLinkPostRecord` | pars.php:127-268 | the shared `dzen.ru` link with the title "Zen Weekly Digest" becomes a `zen` record linking `https://zen.yandex.ru/media/id/abc` |
| `Scenarios.AdPostSkipped` | pars.php:300-304 | an ad post with no attachments, reposts or URLs is skipped and leaves the store unchanged |
| `Scenarios.InvalidTokenReport` | pars.php:530-545 | code 5 reports `VK API Error [5]: Invalid token` and notifies the administrator |

## Left out

- The HTTP request to `wall.get` and its `Http::retry(3, 1000)` (pars.php:38-49) are network I/O. `FetchVk` takes the answer as an `ApiResponse` parameter.
- Decoding `$data['response']['items'] ?? []` from JSON is not modelled. A response without items is `Page([])`.
- `sleep(1)` between posts (pars.php:70-72) is pacing only.
- `saveDebugData` (pars.php:590-600) is filesystem I/O.
- `Log::*`, console output and the body of `notifyAdmin` (pars.php:547-552) are left out. The model keeps only the notice text that code 5 sends.
- Exceptions are not modelled: the `try`/`catch` blocks of `fetchVk` and the database writes (pars.php:85-88, 216-219, 373-376). A write is assumed to succeed.
- `md5` (pars.php:181) is a function supplied to the `NewsFetcher` constructor.
- `date('Y-m-d H:i:s', …)` (pars.php:197, 345) depends on the timezone setting. Records keep the post's Unix timestamp.
- `Normalizer.CleanText`: `strip_tags` and `html_entity_decode` (pars.php:519, 525) are treated as the identity. Cleaned text is therefore not proved free of HTML tags or entities. The real `html_entity_decode` runs after the collapse, so the real function can return `[` or `]` (`&#91;`), a newline or tab (`&#10;`, `&#9;`) or two spaces in a row; `IsClean` holds of the model only.
- `Normalizer.CleanTextFixpoint` holds only with `strip_tags` and `html_entity_decode` as the identity. The real function changes clean text holding a tag or an entity, such as `&amp;`.
- `Normalizer.CleanTextIdempotent` holds only with `strip_tags` and `html_entity_decode` as the identity. The real function is not idempotent: `&amp;amp;` cleans to `&amp;`, which cleans to `&`.
- `Normalizer.CleanTextKeepsText` and `Normalizer.MentionNameSurvives` hold of the model only, for the same reason.
- `Normalizer.ParseUrl` is a hand-written stand-in for `parse_url` on absolute URLs. It does not handle IPv6 hosts, relative URLs or `parse_url` failures. It does not reject an empty host (where `parse_url` fails and the code yields `https://`), does not check the scheme's characters (a scheme outside letters, digits, `+`, `.` and `-` makes `parse_url` read the whole URL as a path), and does not turn control characters into `_`. `Normalizer.ParseUrlAt`, `Normalizer.ParseAbsoluteUrl` and `Normalizer.LongUrlKeepsBase` therefore speak only of URLs with a valid scheme, a non-empty host and no control characters, where the stand-in and `parse_url` agree.
- `Extractor.ExtractBestImage`: `usort` (pars.php:486, 493, 501) is not run in place. Only `[0]` is read after the sort. The model finds that entry directly: the first entry of greatest width, which is what PHP 8's stable sort puts first.
- `Records.Commit`: the Zen branch looks up by `external_id` alone (pars.php:182). The model looks up `(external_id, zen)`. The two agree whenever records with source `vk` carry decimal ids, which `Records.ExternalIdsDisjoint` shows is all this command writes.
- `Classifier.ZenUrl` states no converse. `isZenRepost` does not imply a truthy `getZenUrl`, because a repost whose normalized URL is "" or "0" is passed over.
- `Normalizer.NormalizeZenUrl` is not idempotent: a URL holding a newline can change again (`Normalizer.NormalizeTwiceDiffers`). Idempotence on URLs without a newline is not proved. The model states the properties of its result and the tracking-tail and mirror-host equalities.
- `Classifier.UrlFound` covers URLs that begin a whitespace-delimited word. The pattern also matches a scheme in the middle of a word (`xhttps://a` yields `https://a`); `Classifier.UrlEndAt` and `Classifier.UrlsFrom` model that, but no completeness lemma is stated for it.
- `Normalizer.LongUrlKeepsBase` and `Normalizer.ShortUrlDropsAsParam` describe URLs with a single query parameter. Several `&from=bu&cs=` or `?as=` parameters are described step by step by `Normalizer.DropFromBuRemoves` and `Normalizer.CollapseAsRewrites`.
- `Classifier.IsZenUrl` states a length bound only; `Classifier.ExactZenHostIsZen` gives the lower-case direction. Upper-case matches are covered by the definition, not by a separate lemma.
- Absent fields are not distinguished from "". Every use in pars.php reads them through `empty()`, `isset` on a string, or a pattern, which treat the two alike. A missing `link`, `video` or `photo` object reads as one whose fields are all absent.

=== FILE: classifier.dfy ===
/**
 * The Zen-article classifier of the `news:fetch` command (pars.php):
 * `isZenRepost`, `getZenUrl`, the dispatch of each fetched post, and the
 * choice of the source post inside `processZenRepost`. The repost tree
 * `copy_history` is walked by structural recursion; it has no depth limit.
 */
module Classifier {
  import opened Wrappers
  import opened Strings
  import opened Normalizer
  import opened Posts
  import opened Search

  // ------------------------------------------------------ URLs in a post's text

  /** `https?://[^\s]+` matches at `i`: a scheme followed by a character that is not whitespace. */
  predicate UrlStartsAt(s: string, i: nat)
    requires i <= |s|
  {
    || ("https://" <= s[i..] && i + 8 < |s| && s[i + 8] !in Whitespace)
    || ("http://" <= s[i..] && i + 7 < |s| && s[i + 7] !in Whitespace)
  }

  /**
   * The end of a match of `https?://[^\s]+` starting at `i`: the scheme,
   * then the longest run of non-whitespace characters, which must not be empty.
   */
  function UrlEndAt(s: string, i: nat): (e: Option<nat>)
    requires i <= |s|
    ensures e.Some? <==> UrlStartsAt(s, i)
    ensures e.Some? ==> i + 8 <= e.value <= |s|
    ensures e.Some? ==> "http://" <= s[i..] || "https://" <= s[i..]
    ensures e.Some? ==> forall k :: i <= k < e.value ==> s[k] !in Whitespace
    ensures e.Some? && e.value < |s| ==> s[e.value] in Whitespace
  {
    var schemeEnd := if "https://" <= s[i..] then i + 8 else if "http://" <= s[i..] then i + 7 else i;
    assert "https://" <= s[i..] ==> s[i + 4] == 's';
    assert "http://" <= s[i..] ==> s[i + 4] == ':';
    if schemeEnd == i then None
    else
      var e := SkipUntil(s, schemeEnd, Whitespace);
      if e == schemeEnd then None
      else
        assert schemeEnd < |s| && s[schemeEnd] !in Whitespace;
        Some(e)
  }

  /** The URLs `preg_match_all('#https?://[^\s]+#', …)` finds from index `i` on, in order. */
  function UrlsFrom(s: string, i: nat): (urls: seq<string>)
    requires i <= |s|
    ensures forall k :: 0 <= k < |urls| ==> |urls[k]| > 7 && Whitespace !! set c | c in urls[k]
    ensures forall k :: 0 <= k < |urls| ==> "http://" <= urls[k] || "https://" <= urls[k]
    ensures forall k :: 0 <= k < |urls| ==> Occurs(s[i..], urls[k])
    decreases |s| - i
  {
    if i == |s| then []
    else match UrlEndAt(s, i)
      case Some(e) =>
        OccursFromLater(s, i, e);
        [s[i..e]] + UrlsFrom(s, e)
      case None =>
        OccursFromLater(s, i, i + 1);
        UrlsFrom(s, i + 1)
  }

  /** The URLs of a post's text: each is part of the text, starts with a scheme and holds no whitespace. */
  function TextUrls(text: string): (urls: seq<string>)
    ensures forall k :: 0 <= k < |urls| ==> Occurs(text, urls[k])
    ensures forall k :: 0 <= k < |urls| ==> "http://" <= urls[k] || "https://" <= urls[k]
    ensures forall k :: 0 <= k < |urls| ==> Whitespace !! set c | c in urls[k]
  {
    assert text[0..] == text;
    UrlsFrom(text, 0)
  }

  /**
   * `preg_match('/(zen\.yandex|dzen\.ru)/i', url)`: the URL names a Zen host
   * in any ASCII letter case.
   */
  predicate IsZenUrl(url: string)
    ensures IsZenUrl(url) ==> |url| >= 7
  {
    OccursCILength(url, "zen.yandex");
    OccursCILength(url, "dzen.ru");
    OccursCI(url, "zen.yandex") || OccursCI(url, "dzen.ru")
  }

  /** A URL naming a Zen host in lower case is a Zen URL. */
  lemma ExactZenHostIsZen(url: string)
    ensures Occurs(url, "zen.yandex") || Occurs(url, "dzen.ru") ==> IsZenUrl(url)
  {
    OccursIsOccursCI(url, "zen.yandex");
    OccursIsOccursCI(url, "dzen.ru");
  }

  /** A text without ':' holds no URL. */
  lemma {:induction false} NoUrlsWithoutColon(s: string, i: nat)
    requires i <= |s| && ':' !in s
    ensures UrlsFrom(s, i) == []
    decreases |s| - i
  {
    if i < |s| {
      PrefixHolds(s[i..], "http://", 4);
      PrefixHolds(s[i..], "https://", 5);
      NoUrlsWithoutColon(s, i + 1);
    }
  }

  /** The scan from `i` reaches a match at `at` when the start of the text or whitespace precedes it. */
  lemma {:induction false} ScanReaches(s: string, i: nat, at: nat)
    requires i <= at <= |s| && (at == 0 || s[at - 1] in Whitespace)
    requires UrlEndAt(s, at).Some?
    ensures s[at..UrlEndAt(s, at).value] in UrlsFrom(s, i)
    decreases at - i
  {
    if i < at {
      match UrlEndAt(s, i)
      case Some(e) =>
        assert e <= at - 1;
        ScanReaches(s, e, at);
      case None =>
        ScanReaches(s, i + 1, at);
    }
  }

  /**
   * A URL that stands on its own in a text, with whitespace or the text's
   * ends around it, is found by the scan.
   */
  lemma UrlFound(pre: string, url: string, rest: string)
    requires pre == [] || pre[|pre| - 1] in Whitespace
    requires ("http://" <= url && |url| > 7) || ("https://" <= url && |url| > 8)
    requires forall k :: 0 <= k < |url| ==> url[k] !in Whitespace
    requires rest == [] || rest[0] in Whitespace
    ensures url in TextUrls(pre + url + rest)
  {
    var s := pre + url + rest;
    var at, end := |pre|, |pre| + |url|;
    assert s[at..end] == url;
    assert forall k :: at <= k < end ==> s[k] == url[k - at];
    assert end < |s| ==> s[end] == rest[0];
    if "https://" <= url {
      assert s[at..][..8] == url[..8];
    } else {
      assert s[at..][..7] == url[..7];
    }
    assert UrlStartsAt(s, at);
    var e := UrlEndAt(s, at).value;
    assert e == end;
    ScanReaches(s, 0, at);
  }

  /** A link attachment whose url points to Zen. */
  predicate IsZenLink(a: Attachment) {
    a.Link? && IsZenUrl(a.url)
  }

  // ---------------------------------------------------------------- isZenRepost

  /** `q` is `p` itself or a post of its repost history, at any depth. */
  predicate InRepostTree(q: Post, p: Post)
    decreases p
  {
    q == p || exists j :: 0 <= j < |p.copyHistory| && InRepostTree(q, p.copyHistory[j])
  }

  /** A post whose own link attachments or non-empty text point to Zen. */
  predicate PointsToZen(p: Post) {
    || (exists i :: 0 <= i < |p.attachments| && IsZenLink(p.attachments[i]))
    || (!Empty(p.text) && exists u :: u in TextUrls(p.text) && IsZenUrl(u))
  }

  /**
   * `isZenRepost`: some link attachment points to Zen, or the non-empty text
   * holds a Zen URL, or some post of the repost history is itself Zen
   * content. Unfolded, a post is Zen content exactly when some post of its
   * repost tree points to Zen.
   */
  predicate IsZenRepost(p: Post)
    ensures IsZenRepost(p) <==> exists q :: InRepostTree(q, p) && PointsToZen(q)
    decreases p
  {
    PointsToZen(p) || exists j :: 0 <= j < |p.copyHistory| && IsZenRepost(p.copyHistory[j])
  }

  /** A post whose text holds a standalone Zen URL is Zen content. */
  lemma TextZenUrlMakesZen(p: Post, pre: string, url: string, rest: string)
    requires p.text == pre + url + rest
    requires pre == [] || pre[|pre| - 1] in Whitespace
    requires ("http://" <= url && |url| > 7) || ("https://" <= url && |url| > 8)
    requires forall k :: 0 <= k < |url| ==> url[k] !in Whitespace
    requires rest == [] || rest[0] in Whitespace
    requires IsZenUrl(url)
    ensures IsZenRepost(p)
  {
    UrlFound(pre, url, rest);
    assert !Empty(p.text);
    assert PointsToZen(p);
  }

  /**
   * The dispatch of a fetched post: `isZenRepost(post)`, or a non-empty
   * repost history whose first entry is Zen content. The second test adds
   * nothing, since `isZenRepost` already looks through the whole history.
   */
  function IsZenDispatch(p: Post): (zen: bool)
    ensures zen == IsZenRepost(p)
  {
    IsZenRepost(p) || (|p.copyHistory| > 0 && IsZenRepost(p.copyHistory[0]))
  }

  // ------------------------------------------------------------------ getZenUrl

  /**
   * `getZenUrl`: the normalized url of the first Zen link attachment; else of
   * the first Zen URL in the non-empty text; else the first truthy result of
   * the search over the repost history; else null.
   */
  function ZenUrl(p: Post): (r: Option<string>)
    ensures r.Some? ==> IsZenRepost(p) && IsNormalized(r.value)
    ensures forall i :: IsFirst(p.attachments, IsZenLink, i) ==> r == Some(NormalizeZenUrl(p.attachments[i].url))
    ensures NoneSatisfy(p.attachments, IsZenLink) && !Empty(p.text) ==>
      forall k :: IsFirst(TextUrls(p.text), IsZenUrl, k) ==> r == Some(NormalizeZenUrl(TextUrls(p.text)[k]))
    decreases p, 1, 0
  {
    match FirstWhere(p.attachments, IsZenLink)
    case Some(i) => Some(NormalizeZenUrl(p.attachments[i].url))
    case None =>
      var inText := if Empty(p.text) then None else FirstWhere(TextUrls(p.text), IsZenUrl);
      if inText.Some? then
        assert TextUrls(p.text)[inText.value] in TextUrls(p.text);
        Some(NormalizeZenUrl(TextUrls(p.text)[inText.value]))
      else ZenUrlInReposts(p, 0)
  }

  /**
   * The repost part of `getZenUrl`: the first truthy `getZenUrl` among the
   * reposts from index `i` on; null when there is none.
   */
  function ZenUrlInReposts(p: Post, i: nat): (r: Option<string>)
    requires i <= |p.copyHistory|
    ensures r.Some? ==> Truthy(r) && IsNormalized(r.value)
    ensures r.Some? ==> exists j :: i <= j < |p.copyHistory| && IsZenRepost(p.copyHistory[j])
    decreases p, 0, |p.copyHistory| - i
  {
    if i == |p.copyHistory| then None
    else
      var url := ZenUrl(p.copyHistory[i]);
      if Truthy(url) then url else ZenUrlInReposts(p, i + 1)
  }

  /** `j` is the first repost at or after `i` whose `getZenUrl` is truthy. */
  predicate FirstTruthyRepost(p: Post, i: nat, j: nat) {
    i <= j < |p.copyHistory| && Truthy(ZenUrl(p.copyHistory[j]))
    && forall m :: i <= m < j ==> !Truthy(ZenUrl(p.copyHistory[m]))
  }

  /** The repost search returns the url of the first repost with a truthy `getZenUrl`. */
  lemma {:induction false} RepostSearchFindsFirst(p: Post, i: nat, j: nat)
    requires FirstTruthyRepost(p, i, j)
    ensures ZenUrlInReposts(p, i) == ZenUrl(p.copyHistory[j])
    decreases j - i
  {
    var url := ZenUrl(p.copyHistory[i]);
    if i < j {
      assert !Truthy(url);
      RepostSearchFindsFirst(p, i + 1, j);
    } else {
      assert Truthy(url);
    }
  }

  /** The repost search finds nothing when no repost from `i` on has a truthy `getZenUrl`. */
  lemma {:induction false} RepostSearchFindsNone(p: Post, i: nat)
    requires i <= |p.copyHistory|
    requires forall m :: i <= m < |p.copyHistory| ==> !Truthy(ZenUrl(p.copyHistory[m]))
    ensures ZenUrlInReposts(p, i).None?
    decreases |p.copyHistory| - i
  {
    if i < |p.copyHistory| {
      var url := ZenUrl(p.copyHistory[i]);
      assert !Truthy(url);
      RepostSearchFindsNone(p, i + 1);
    }
  }

  /**
   * `getZenUrl` looks at the repost history only when neither a link
   * attachment nor a URL in the text points to Zen, and then returns the
   * result of the first repost whose result is truthy, or null.
   */
  lemma ZenUrlFromReposts(p: Post)
    requires NoneSatisfy(p.attachments, IsZenLink)
    requires Empty(p.text) || NoneSatisfy(TextUrls(p.text), IsZenUrl)
    ensures forall j: nat :: FirstTruthyRepost(p, 0, j) ==> ZenUrl(p) == ZenUrl(p.copyHistory[j])
    ensures (forall m :: 0 <= m < |p.copyHistory| ==> !Truthy(ZenUrl(p.copyHistory[m]))) ==> ZenUrl(p).None?
  {
    forall j: nat | FirstTruthyRepost(p, 0, j)
      ensures ZenUrl(p) == ZenUrl(p.copyHistory[j])
    {
      RepostSearchFindsFirst(p, 0, j);
    }
    if forall m :: 0 <= m < |p.copyHistory| ==> !Truthy(ZenUrl(p.copyHistory[m])) {
      RepostSearchFindsNone(p, 0);
    }
  }

  /** `getZenUrl` returns null for a post that is not Zen content. */
  lemma NoZenNoUrl(p: Post)
    ensures !IsZenRepost(p) ==> ZenUrl(p).None?
  {
  }

  // ---------------------------------------------------- processZenRepost source

  /**
   * The post `processZenRepost` takes its content from: the first repost
   * that is Zen content, else the post itself. It does not first ask whether
   * the post itself matches.
   */
  function ZenSource(p: Post): (src: Post)
    ensures forall j :: IsFirst(p.copyHistory, IsZenRepost, j) ==> src == p.copyHistory[j]
    ensures NoneSatisfy(p.copyHistory, IsZenRepost) ==> src == p
  {
    match FirstWhere(p.copyHistory, IsZenRepost)
    case Some(j) => p.copyHistory[j]
    case None => p
  }

  /** The source post of a Zen post is itself Zen content. */
  lemma ZenSourceIsZen(p: Post)
    requires IsZenRepost(p)
    ensures IsZenRepost(ZenSource(p))
  {
    match FirstWhere(p.copyHistory, IsZenRepost)
    case Some(j) =>
    case None =>
  }

  /**
   * The source-post loop of `processZenRepost`: start from the post, and
   * stop at the first repost that is Zen content.
   */
  method SelectSourcePost(p: Post) returns (src: Post)
    ensures src == ZenSource(p)
  {
    src := p;
    var j := 0;
    while j < |p.copyHistory|
      invariant 0 <= j <= |p.copyHistory|
      invariant forall m :: 0 <= m < j ==> !IsZenRepost(p.copyHistory[m])
      invariant src == p
    {
      if IsZenRepost(p.copyHistory[j]) {
        src := p.copyHistory[j];
        assert IsFirst(p.copyHistory, IsZenRepost, j);
        break;
      }
      j := j + 1;
    }
  }

  /**
   * A repost wrapper with no attachments and no text, whose only history entry
   * carries a Zen link, goes to the Zen branch and takes its content from
   * that entry.
   */
  lemma RepostWrapperResolves(p: Post, inner: Post, k: nat)
    requires p.attachments == [] && p.text == "" && p.copyHistory == [inner]
    requires k < |inner.attachments| && IsZenLink(inner.attachments[k])
    ensures IsZenDispatch(p)
    ensures ZenSource(p) == inner
  {
    assert IsZenRepost(inner);
    assert IsFirst(p.copyHistory, IsZenRepost, 0);
  }
}

=== FILE: extractor.dfy ===
/**
 * The attachment extractors of the `news:fetch` command (pars.php): text and
 * title taken from a post's attachments, the generated title, the first
 * sentence, and the preview image. Each extractor walks the attachment list
 * in order and the first attachment passing its test decides the result.
 */
module Extractor {
  import opened Wrappers
  import opened Strings
  import opened Normalizer
  import opened Posts
  import opened Search

  // --------------------------------------------------- getTextFromLinkAttachment

  /** A link attachment with a non-empty title or description. */
  predicate LinkWithText(a: Attachment) {
    a.Link? && (!Empty(a.title) || !Empty(a.description))
  }

  /** The text a link yields: its cleaned title, else its cleaned description. */
  function LinkText(a: Attachment): string
    requires a.Link?
  {
    if !Empty(a.title) then CleanText(a.title) else CleanText(a.description)
  }

  /**
   * `getTextFromLinkAttachment`: the text of the first link attachment that has
   * a title or a description, title first; "" when there is none.
   */
  function TextFromLinkAttachment(p: Post): (r: string)
    ensures IsClean(r)
    ensures forall i :: IsFirst(p.attachments, LinkWithText, i) ==> r == LinkText(p.attachments[i])
    ensures NoneSatisfy(p.attachments, LinkWithText) ==> r == ""
  {
    FirstWhereFinds(p.attachments, LinkWithText);
    match FirstWhere(p.attachments, LinkWithText)
    case Some(i) => LinkText(p.attachments[i])
    case None => ""
  }

  // ----------------------------------------------------- getTextFromAttachments

  /** A video or link attachment with a non-empty description or title. */
  predicate CarriesText(a: Attachment) {
    (a.Video? || a.Link?) && (!Empty(a.description) || !Empty(a.title))
  }

  /** The text a video or link yields: its cleaned description, else its cleaned title. */
  function CarriedText(a: Attachment): string
    requires a.Video? || a.Link?
  {
    if !Empty(a.description) then CleanText(a.description) else CleanText(a.title)
  }

  /**
   * `getTextFromAttachments`: the text of the first video or link attachment
   * that has a description or a title, description first; "" when there is none.
   */
  function TextFromAttachments(p: Post): (r: string)
    ensures IsClean(r)
    ensures forall i :: IsFirst(p.attachments, CarriesText, i) ==> r == CarriedText(p.attachments[i])
    ensures NoneSatisfy(p.attachments, CarriesText) ==> r == ""
  {
    FirstWhereFinds(p.attachments, CarriesText);
    match FirstWhere(p.attachments, CarriesText)
    case Some(i) => CarriedText(p.attachments[i])
    case None => ""
  }

  // -------------------------------------------------- getTitleFromLinkAttachment

  /** A link whose raw title is longer than 15 characters. */
  predicate LongLinkTitle(a: Attachment) {
    a.Link? && !Empty(a.title) && |a.title| > 15
  }

  /**
   * `getTitleFromLinkAttachment`: the cleaned title of the first link whose
   * raw title is longer than 15 characters; null when there is none.
   */
  function TitleFromLinkAttachment(p: Post): (r: Option<string>)
    ensures r.None? <==> NoneSatisfy(p.attachments, LongLinkTitle)
    ensures forall i :: IsFirst(p.attachments, LongLinkTitle, i) ==> r == Some(CleanText(p.attachments[i].title))
  {
    FirstWhereFinds(p.attachments, LongLinkTitle);
    match FirstWhere(p.attachments, LongLinkTitle)
    case Some(i) => Some(CleanText(p.attachments[i].title))
    case None => None
  }

  // ---------------------------------------------------------- getFirstSentence

  /** `i` is the first occurrence of `c` in `t` and lies beyond index 10. */
  predicate CutsAt(t: string, c: char, i: int) {
    10 < i < |t| && t[i] == c && c !in t[..i]
  }

  /** No first occurrence of `c` in `t` lies beyond index 10. */
  predicate Uncut(t: string, c: char) {
    forall i :: 10 < i < |t| && t[i] == c ==> c in t[..i]
  }

  /**
   * `getFirstSentence`: the prefix through the first "." when that "." lies
   * beyond index 10; else the prefix before the first newline when that lies
   * beyond index 10; else the whole text.
   */
  function FirstSentence(t: string): (r: string)
    ensures r <= t
    ensures forall i :: CutsAt(t, '.', i) ==> r == t[..i + 1]
    ensures Uncut(t, '.') ==> forall k :: CutsAt(t, '\n', k) ==> r == t[..k]
    ensures Uncut(t, '.') && Uncut(t, '\n') ==> r == t
  {
    var dot := IndexOf(t, '.');
    if dot.Some? && dot.value > 10 then t[..dot.value + 1]
    else
      var newline := IndexOf(t, '\n');
      if newline.Some? && newline.value > 10 then t[..newline.value] else t
  }

  // -------------------------------------------------------------- generateTitle

  /** A link whose title is non-empty and longer than 15 characters once cleaned. */
  predicate LongCleanLinkTitle(a: Attachment) {
    a.Link? && !Empty(a.title) && |CleanText(a.title)| > 15
  }

  /** A video with a non-empty title. */
  predicate VideoWithTitle(a: Attachment) {
    a.Video? && !Empty(a.title)
  }

  /** The first sentence is strictly between 20 and 90 characters long. */
  predicate SentenceFits(text: string) {
    20 < |FirstSentence(text)| < 90
  }

  /**
   * `generateTitle`, in its priority order: the first link title longer than
   * 15 characters once cleaned; else the first sentence when it has between
   * 21 and 89 characters; else the first non-empty video title, uncleaned;
   * else the text cut to 100 characters.
   */
  function GenerateTitle(text: string, p: Post): (r: string)
    ensures forall i :: IsFirst(p.attachments, LongCleanLinkTitle, i) ==> r == CleanText(p.attachments[i].title)
    ensures NoneSatisfy(p.attachments, LongCleanLinkTitle) && SentenceFits(text) ==> r == FirstSentence(text)
    ensures NoneSatisfy(p.attachments, LongCleanLinkTitle) && !SentenceFits(text) ==>
      (forall i :: IsFirst(p.attachments, VideoWithTitle, i) ==> r == p.attachments[i].title)
    ensures NoneSatisfy(p.attachments, LongCleanLinkTitle) && !SentenceFits(text) && NoneSatisfy(p.attachments, VideoWithTitle) ==>
      r == Truncate(text, 100)
  {
    FirstWhereFinds(p.attachments, LongCleanLinkTitle);
    FirstWhereFinds(p.attachments, VideoWithTitle);
    match FirstWhere(p.attachments, LongCleanLinkTitle)
    case Some(i) => CleanText(p.attachments[i].title)
    case None =>
      if SentenceFits(text) then FirstSentence(text)
      else match FirstWhere(p.attachments, VideoWithTitle)
        case Some(i) => p.attachments[i].title
        case None => Truncate(text, 100)
  }

  /** A non-empty text always yields a non-empty title. */
  lemma GenerateTitleNonEmpty(text: string, p: Post)
    ensures text != "" ==> GenerateTitle(text, p) != ""
  {
    match FirstWhere(p.attachments, LongCleanLinkTitle)
    case Some(i) =>
    case None =>
      if !SentenceFits(text) {
        match FirstWhere(p.attachments, VideoWithTitle)
        case Some(i) =>
        case None =>
          assert |text| > 100 ==> |Truncate(text, 100)| >= 3;
      }
  }

  /**
   * A title that comes from neither a link nor a video attachment has at most
   * 103 characters: the first sentence is under 90, the cut text at most 100
   * plus "...".
   */
  lemma GeneratedTitleBounded(text: string, p: Post)
    requires NoneSatisfy(p.attachments, LongCleanLinkTitle) && NoneSatisfy(p.attachments, VideoWithTitle)
    ensures |GenerateTitle(text, p)| <= 103
  {
    if !SentenceFits(text) && |text| > 100 {
      assert |Truncate(text, 100)| - 3 <= 100;
    }
  }

  // ---------------------------------------------------------- extractBestImage

  /**
   * The size list an attachment offers: a video's `image`, a photo's `sizes`,
   * or a link preview's `photo.sizes` when that list is non-empty.
   */
  function ImageSizes(a: Attachment): (r: Option<seq<Size>>)
    ensures a.Link? && r.Some? ==> r.value != []
    ensures a.Other? ==> r.None?
  {
    match a
    case Video(_, _, image) => image
    case Photo(sizes) => sizes
    case Link(_, _, _, photo) => if photo.Some? && photo.value != [] then photo else None
    case Other => None
  }

  /** An attachment `extractBestImage` stops at. */
  predicate CarriesImage(a: Attachment) {
    ImageSizes(a).Some?
  }

  /**
   * `k` is where a stable sort by descending width puts its first entry: the
   * first entry of greatest width.
   */
  predicate IsWidest(l: seq<Size>, k: int) {
    && 0 <= k < |l|
    && (forall j :: 0 <= j < |l| ==> l[j].width <= l[k].width)
    && (forall j :: 0 <= j < k ==> l[j].width < l[k].width)
  }

  /** The first entry of greatest width in a non-empty size list. */
  function FirstWidest(l: seq<Size>): (k: nat)
    requires l != []
    ensures IsWidest(l, k)
    decreases |l|
  {
    if |l| == 1 then 0
    else
      var k := FirstWidest(l[..|l| - 1]);
      if l[|l| - 1].width > l[k].width then |l| - 1 else k
  }

  /**
   * `extractBestImage`: the url of the widest entry of the first attachment
   * that offers a size list; null when no attachment offers one or the list
   * it offers is empty.
   */
  function BestImage(p: Post): (r: Option<string>)
    ensures p.attachments == [] ==> r.None?
    ensures NoneSatisfy(p.attachments, CarriesImage) ==> r.None?
    ensures forall i :: IsFirst(p.attachments, CarriesImage, i) && ImageSizes(p.attachments[i]).value == [] ==> r.None?
    ensures forall i, k :: IsFirst(p.attachments, CarriesImage, i) && IsWidest(ImageSizes(p.attachments[i]).value, k) ==>
      r == ImageSizes(p.attachments[i]).value[k].url
  {
    match FirstWhere(p.attachments, CarriesImage)
    case None => None
    case Some(i) =>
      var sizes := ImageSizes(p.attachments[i]).value;
      if sizes == [] then None else sizes[FirstWidest(sizes)].url
  }

  /**
   * The index of the entry `usort` by descending width brings to the front:
   * PHP's sort is stable, so it is the first entry of greatest width. Only
   * that entry is read afterwards, so the scan finds it without reordering.
   */
  method WidestEntry(l: seq<Size>) returns (k: nat)
    requires l != []
    ensures IsWidest(l, k)
  {
    k := 0;
    var j := 1;
    while j < |l|
      invariant 1 <= j <= |l| && k < j
      invariant forall m :: 0 <= m < j ==> l[m].width <= l[k].width
      invariant forall m :: 0 <= m < k ==> l[m].width < l[k].width
    {
      if l[j].width > l[k].width {
        k := j;
      }
      j := j + 1;
    }
  }

  /**
   * `extractBestImage` as the source runs it: walk the attachments, stop at
   * the first one offering a size list, and return the url of its widest
   * entry (null for an empty list); null when the walk finds none.
   */
  method ExtractBestImage(p: Post) returns (url: Option<string>)
    ensures url == BestImage(p)
  {
    var i := 0;
    while i < |p.attachments|
      invariant 0 <= i <= |p.attachments|
      invariant forall j :: 0 <= j < i ==> !CarriesImage(p.attachments[j])
    {
      var sizes := ImageSizes(p.attachments[i]);
      if sizes.Some? {
        assert IsFirst(p.attachments, CarriesImage, i);
        if sizes.value == [] {
          return None;
        }
        var k := WidestEntry(sizes.value);
        return sizes.value[k].url;
      }
      i := i + 1;
    }
    return None;
  }
}

=== FILE: fetcher.dfy ===
/**
 * The `news:fetch` command (pars.php) as an object holding the news store:
 * `fetchVk` walks one page of the wall and sends each post to
 * `processZenRepost` or `processVkPost`, which write to the store through
 * `updateOrCreate` unless the stored record was edited by hand.
 */
module Fetcher {
  import opened Wrappers
  import opened Strings
  import opened Normalizer
  import opened Posts
  import opened Search
  import opened Extractor
  import opened Classifier
  import opened Records

  /** The answer of `wall.get`: a failed request, an API error envelope, or a page of posts. */
  datatype ApiResponse = HttpFailure(status: int) | ApiError(code: int, message: string) | Page(items: seq<Post>)

  /** What one run of `fetchVk` ends with. */
  datatype RunReport = TransportFailed(status: int) | ApiFailed(error: ErrorReport) | Processed(outcomes: seq<Outcome>)

  type Store = map<NewsKey, NewsRecord>

  /** The store and the outcomes after the posts of `posts` are handled in order. */
  function RunPosts(news: Store, posts: seq<Post>, md5: string -> string): (r: (Store, seq<Outcome>))
    ensures |r.1| == |posts|
    decreases |posts|
  {
    if posts == [] then (news, [])
    else
      var before := RunPosts(news, posts[..|posts| - 1], md5);
      var after := Commit(before.0, Decide(posts[|posts| - 1], md5));
      (after.0, before.1 + [after.1])
  }

  /** A run never removes a record and never touches one edited by hand. */
  lemma {:induction false} RunKeepsManualRecords(news: Store, posts: seq<Post>, md5: string -> string)
    ensures news.Keys <= RunPosts(news, posts, md5).0.Keys
    ensures forall k :: k in news && news[k].isManual ==> RunPosts(news, posts, md5).0[k] == news[k]
    decreases |posts|
  {
    if posts != [] {
      RunKeepsManualRecords(news, posts[..|posts| - 1], md5);
    }
  }

  /** An advertising post that is not Zen content leaves the store as it is. */
  lemma AdPostLeavesStore(news: Store, p: Post, md5: string -> string)
    requires !IsZenRepost(p) && p.markedAsAds == 1
    ensures Commit(news, Decide(p, md5)) == (news, Skipped(AdPost))
  {
  }

  /** A post outside the Zen branch with no content and no attachments leaves the store as it is. */
  lemma EmptyPostLeavesStore(news: Store, p: Post, md5: string -> string)
    requires !IsZenRepost(p) && p.markedAsAds != 1 && Empty(VkContent(p)) && p.attachments == []
    ensures Commit(news, Decide(p, md5)) == (news, Skipped(EmptyPost))
  {
  }

  /**
   * The link part of `processZenRepost`: `getZenUrl` of the source post;
   * when that is not truthy, a second pass over the URLs of the text that
   * stops at the first Zen URL; the permalink of the fetched post when both
   * come to nothing.
   */
  method FindZenLink(post: Post, src: Post) returns (link: string)
    ensures link == ZenLink(post, src)
  {
    var zenUrl := ZenUrl(src);
    if !Truthy(zenUrl) && !Empty(src.text) {
      var urls := TextUrls(src.text);
      var k := ScanForZenUrl(urls);
      if k < |urls| {
        zenUrl := Some(NormalizeZenUrl(urls[k]));
      }
      assert Truthy(zenUrl) == Truthy(ZenUrlInText(src));
      assert Truthy(zenUrl) ==> zenUrl == ZenUrlInText(src);
    }
    link := if Truthy(zenUrl) then zenUrl.value else VkLink(post);
  }

  /** The `foreach … break` over the URLs of the text: the index of the first Zen URL, or the length when there is none. */
  method ScanForZenUrl(urls: seq<string>) returns (k: nat)
    ensures k <= |urls|
    ensures k < |urls| ==> IsFirst(urls, IsZenUrl, k)
    ensures k == |urls| ==> NoneSatisfy(urls, IsZenUrl)
  {
    k := 0;
    while k < |urls|
      invariant k <= |urls|
      invariant forall m :: 0 <= m < k ==> !IsZenUrl(urls[m])
    {
      if IsZenUrl(urls[k]) {
        return;
      }
      k := k + 1;
    }
  }

  class NewsFetcher {
    /** The `News` table, by `(external_id, source)`. */
    var news: Store
    /** The `md5` hash, taken as given. */
    const md5: string -> string

    constructor (initial: Store, hash: string -> string)
      ensures news == initial && md5 == hash
    {
      news := initial;
      md5 := hash;
    }

    /** Puts `record` under `key` unless the record stored there was edited by hand. */
    method Upsert(key: NewsKey, record: NewsRecord) returns (outcome: Outcome)
      modifies this
      ensures (news, outcome) == Commit(old(news), Write(key, record))
    {
      if key in news && news[key].isManual {
        return Skipped(ManuallyEdited);
      }
      news := news[key := record];
      return Saved(key);
    }

    /**
     * `processZenRepost`: pick the source post, take its content, find the
     * Zen link, and upsert the `zen` record under "zen_" and the hash of the
     * link.
     */
    method ProcessZenRepost(post: Post) returns (outcome: Outcome)
      modifies this
      ensures (news, outcome) == Commit(old(news), ZenDecision(post, md5))
    {
      var src := SelectSourcePost(post);
      var text := CleanText(src.text);
      if Empty(text) {
        text := TextFromLinkAttachment(src);
      }
      assert text == ZenContent(src);
      if Empty(text) {
        return Skipped(EmptyZenContent);
      }
      var link := FindZenLink(post, src);
      var image := ExtractBestImage(src);
      var record := NewsRecord(Zen, GenerateTitle(text, src), text, Truncate(text, ExcerptLength),
        CleanImageUrl(image), link, post.date, false);
      outcome := Upsert(NewsKey(ZenExternalId(link, md5), Zen), record);
    }

    /**
     * `processVkPost`: skip Zen content, ads and empty posts; otherwise
     * upsert the `vk` record under the post id.
     */
    method ProcessVkPost(post: Post) returns (outcome: Outcome)
      modifies this
      ensures (news, outcome) == Commit(old(news), VkDecision(post))
    {
      if IsZenRepost(post) {
        return Skipped(ZenContentInVkPost);
      }
      if post.markedAsAds == 1 {
        return Skipped(AdPost);
      }
      var text := CleanText(post.text);
      if Empty(text) {
        text := TextFromAttachments(post);
      }
      if Empty(text) && post.attachments == [] {
        return Skipped(EmptyPost);
      }
      var linkTitle := TitleFromLinkAttachment(post);
      var title := if Truthy(linkTitle) then linkTitle.value else GenerateTitle(text, post);
      var image := ExtractBestImage(post);
      var record := NewsRecord(Vk, title, text, Truncate(text, ExcerptLength),
        CleanImageUrl(image), VkLink(post), post.date, false);
      outcome := Upsert(NewsKey(Decimal(post.id), Vk), record);
    }

    /** One post of the page: the Zen branch for Zen content, the VK branch otherwise. */
    method HandlePost(post: Post) returns (outcome: Outcome)
      modifies this
      ensures (news, outcome) == Commit(old(news), Decide(post, md5))
    {
      if IsZenDispatch(post) {
        outcome := ProcessZenRepost(post);
      } else {
        outcome := ProcessVkPost(post);
      }
    }

    /**
     * `fetchVk` once the request has been answered: stop on a failed request
     * or an error envelope (reporting it through `handleVkError`); otherwise
     * handle the posts of the page in order.
     */
    method FetchVk(response: ApiResponse) returns (report: RunReport)
      modifies this
      ensures response.HttpFailure? ==> report == TransportFailed(response.status) && news == old(news)
      ensures response.ApiError? ==> report == ApiFailed(HandleVkError(response.code, response.message)) && news == old(news)
      ensures response.Page? ==> report.Processed? && (news, report.outcomes) == RunPosts(old(news), response.items, md5)
    {
      match response
      case HttpFailure(status) =>
        return TransportFailed(status);
      case ApiError(code, message) =>
        return ApiFailed(HandleVkError(code, message));
      case Page(posts) =>
        var outcomes := [];
        var i := 0;
        while i < |posts|
          invariant 0 <= i <= |posts|
          invariant (news, outcomes) == RunPosts(old(news), posts[..i], md5)
        {
          var outcome := HandlePost(posts[i]);
          assert posts[..i + 1][..i] == posts[..i];
          outcomes := outcomes + [outcome];
          i := i + 1;
        }
        assert posts[..i] == posts;
        return Processed(outcomes);
    }
  }
}

=== FILE: normalizer.dfy ===
/**
 * The text and URL normalizers of the `news:fetch` command (pars.php):
 * `cleanText`, `truncateText`, `normalizeZenUrl` and `cleanImageUrl`.
 * Each PCRE pattern the source uses is written out as a scanner over the
 * string, with the same leftmost, greedy, non-overlapping matching.
 */
module Normalizer {
  import opened Wrappers
  import opened Strings

  // ------------------------------------------------------------------ cleanText

  /**
   * A mention `[target|Name]` at the start of `s`, as the pattern
   * `\[([^\|\]]+)\|([^\]]+)\]` matches it: the index where Name starts and
   * the index of the closing bracket.
   */
  function MentionAt(s: string): (m: Option<(nat, nat)>)
    ensures m.Some? ==> MentionSpan(s, m.value.0, m.value.1)
  {
    if s == [] || s[0] != '[' then None
    else
      var bar := SkipUntil(s, 1, {'|', ']'});
      if bar == 1 || bar == |s| || s[bar] != '|' then None
      else
        var close := SkipUntil(s, bar + 1, {']'});
        if close == bar + 1 || close == |s| then None
        else Some((bar + 1, close))
  }

  /**
   * `s` starts with `[target|Name]` where Name runs from `start` to the
   * closing bracket at `close`: the target is non-empty and holds neither
   * `|` nor `]`, and Name is non-empty and holds no `]`.
   */
  predicate MentionSpan(s: string, start: nat, close: nat) {
    && 2 < start < close < |s| && s[0] == '[' && s[start - 1] == '|' && s[close] == ']'
    && (forall i :: 1 <= i < start - 1 ==> s[i] != '|' && s[i] != ']')
    && (forall i :: start <= i < close ==> s[i] != ']')
  }

  /** A mention at the start of `s` is found, and it is the only one there. */
  lemma MentionAtFindsSpan(s: string, start: nat, close: nat)
    requires MentionSpan(s, start, close)
    ensures MentionAt(s) == Some((start, close))
  {
    SkipUntilIs(s, 1, {'|', ']'}, start - 1);
    SkipUntilIs(s, start, {']'}, close);
  }

  /** Every mention `[target|Name]` replaced by `Name`, scanning left to right. */
  function RewriteMentions(s: string): (r: string)
    ensures |r| <= |s|
    ensures forall c :: c in r ==> c in s
    decreases |s|
  {
    if s == [] then []
    else match MentionAt(s)
      case Some((start, close)) => s[start..close] + RewriteMentions(s[close + 1..])
      case None => [s[0]] + RewriteMentions(s[1..])
  }

  /** Text in which no mention starts anywhere is left as it is. */
  lemma {:induction false} RewriteKeepsMentionFree(s: string)
    requires forall i, start, close :: 0 <= i < |s| ==> !MentionSpan(s[i..], start, close)
    ensures RewriteMentions(s) == s
    decreases |s|
  {
    if s != [] {
      assert s[0..] == s;
      assert MentionAt(s).None?;
      forall i, start, close | 0 <= i < |s| - 1
        ensures !MentionSpan(s[1..][i..], start, close)
      {
        assert s[1..][i..] == s[i + 1..];
      }
      RewriteKeepsMentionFree(s[1..]);
    }
  }

  /** Without `|` no mention can start, so a `[` such as the one in `[abc` is kept. */
  lemma RewriteWithoutBar(s: string)
    requires '|' !in s
    ensures RewriteMentions(s) == s
  {
    forall i, start, close | 0 <= i < |s|
      ensures !MentionSpan(s[i..], start, close)
    {
      assert forall j :: 0 <= j < |s[i..]| ==> s[i..][j] in s;
    }
    RewriteKeepsMentionFree(s);
  }

  /** `str_replace(['[', ']'], '', s)`. */
  function RemoveBrackets(s: string): (r: string)
    ensures '[' !in r && ']' !in r
    ensures forall c :: c in r ==> c in s
    ensures '[' !in s && ']' !in s ==> r == s
  {
    if s == [] then []
    else (if s[0] == '[' || s[0] == ']' then [] else [s[0]]) + RemoveBrackets(s[1..])
  }

  /** `preg_replace('/\s+/', ' ', s)`: every run of whitespace becomes one space. */
  function CollapseWhitespace(s: string): (r: string)
    ensures r == [] <==> s == []
    ensures r != [] ==> r[0] == (if s[0] in Whitespace then ' ' else s[0])
    ensures forall i :: 0 <= i < |r| && r[i] in Whitespace ==> r[i] == ' '
    ensures forall i :: 0 < i < |r| && r[i] == ' ' ==> r[i - 1] != ' '
    ensures forall c :: c in r ==> c == ' ' || c in s
    decreases |s|
  {
    if s == [] then []
    else if s[0] in Whitespace then [' '] + CollapseWhitespace(s[SkipWhile(s, 0, Whitespace)..])
    else [s[0]] + CollapseWhitespace(s[1..])
  }

  /** The bounds PHP `trim` keeps: the longest slice that neither starts nor ends with a trim character. */
  function TrimBounds(s: string): (b: (nat, nat))
    ensures b.0 <= b.1 <= |s|
    ensures forall i :: 0 <= i < b.0 ==> s[i] in TrimChars
    ensures forall i :: b.1 <= i < |s| ==> s[i] in TrimChars
    ensures b.0 < b.1 ==> s[b.0] !in TrimChars && s[b.1 - 1] !in TrimChars
  {
    var start := SkipWhile(s, 0, TrimChars);
    (start, start + TrailingStart(s[start..], TrimChars))
  }

  /** PHP `trim`: the leading and trailing trim characters removed. */
  function Trim(s: string): (r: string)
    ensures |r| <= |s|
    ensures r != [] ==> r[0] !in TrimChars && r[|r| - 1] !in TrimChars
    ensures s == [] || (s[0] !in TrimChars && s[|s| - 1] !in TrimChars) ==> r == s
  {
    s[TrimBounds(s).0..TrimBounds(s).1]
  }

  /** What `cleanText` guarantees of its result. */
  predicate IsClean(s: string) {
    && '[' !in s && ']' !in s
    && (forall i :: 0 <= i < |s| && s[i] in Whitespace ==> s[i] == ' ')
    && (forall i :: 0 < i < |s| && s[i] == ' ' ==> s[i - 1] != ' ')
    && (s != [] ==> s[0] !in TrimChars && s[|s| - 1] !in TrimChars)
  }

  /**
   * `cleanText`: mentions rewritten to their display names, remaining brackets
   * removed, whitespace runs collapsed, and the ends trimmed.
   */
  function CleanText(raw: string): (r: string)
    ensures IsClean(r)
  {
    Trim(CollapseWhitespace(RemoveBrackets(RewriteMentions(raw))))
  }

  lemma {:induction false} RewriteMentionsWithoutBrackets(s: string)
    requires '[' !in s
    ensures RewriteMentions(s) == s
    decreases |s|
  {
    if s != [] {
      RewriteMentionsWithoutBrackets(s[1..]);
    }
  }

  lemma {:induction false} CollapseFixpoint(s: string)
    requires forall i :: 0 <= i < |s| && s[i] in Whitespace ==> s[i] == ' '
    requires forall i :: 0 < i < |s| && s[i] == ' ' ==> s[i - 1] != ' '
    ensures CollapseWhitespace(s) == s
    decreases |s|
  {
    if s != [] {
      CollapseFixpoint(s[1..]);
      if s[0] in Whitespace {
        assert |s| > 1 ==> s[1] !in Whitespace;
        assert SkipWhile(s, 0, Whitespace) == 1;
      }
    }
  }

  /** A clean string is left as it is by `cleanText`. */
  lemma CleanTextFixpoint(s: string)
    requires IsClean(s)
    ensures CleanText(s) == s
  {
    RewriteMentionsWithoutBrackets(s);
    assert RemoveBrackets(RewriteMentions(s)) == s;
    CollapseFixpoint(s);
    if s != [] {
      assert SkipWhile(s, 0, TrimChars) == 0;
      assert s[0..] == s;
      assert TrailingStart(s, TrimChars) == |s|;
    }
    assert TrimBounds(s) == (0, |s|);
  }

  /** `cleanText` is idempotent. */
  lemma CleanTextIdempotent(raw: string)
    ensures CleanText(CleanText(raw)) == CleanText(raw)
  {
    CleanTextFixpoint(CleanText(raw));
  }

  /** `SkipUntil` is determined by its contract. */
  lemma SkipUntilIs(s: string, from: nat, stops: set<char>, k: nat)
    requires from <= k <= |s|
    requires forall i :: from <= i < k ==> s[i] !in stops
    requires k < |s| ==> s[k] in stops
    ensures SkipUntil(s, from, stops) == k
  {
  }

  /** A mention `[target|Name]` (target without `|` or `]`, Name without `]`) becomes `Name`. */
  lemma MentionBecomesName(target: string, name: string, rest: string)
    requires target != [] && '|' !in target && ']' !in target
    requires name != [] && ']' !in name
    ensures RewriteMentions(['['] + target + ['|'] + name + [']'] + rest) == name + RewriteMentions(rest)
  {
    var s := ['['] + target + ['|'] + name + [']'] + rest;
    var bar := |target| + 1;
    var close := bar + 1 + |name|;
    assert s[1..bar] == target;
    assert s[bar + 1..close] == name;
    assert s[close + 1..] == rest;
    SkipUntilIs(s, 1, {'|', ']'}, bar);
    SkipUntilIs(s, bar + 1, {']'}, close);
    assert MentionAt(s) == Some((bar + 1, close));
  }

  /** A mention after text without `[` is rewritten to its name; the text before it is kept. */
  lemma {:induction false} MentionAfterPlainText(pre: string, target: string, name: string, rest: string)
    requires '[' !in pre
    requires target != [] && '|' !in target && ']' !in target
    requires name != [] && ']' !in name
    ensures RewriteMentions(pre + (['['] + target + ['|'] + name + [']'] + rest)) == pre + name + RewriteMentions(rest)
    decreases |pre|
  {
    var m := ['['] + target + ['|'] + name + [']'] + rest;
    if pre == [] {
      assert pre + m == m;
      MentionBecomesName(target, name, rest);
    } else {
      var s := pre + m;
      assert s[0] == pre[0] && s[0] != '[';
      assert s[1..] == pre[1..] + m;
      MentionAfterPlainText(pre[1..], target, name, rest);
      var r := RewriteMentions(rest);
      assert RewriteMentions(s) == [pre[0]] + (pre[1..] + name + r);
      AppendAssoc([pre[0]], pre[1..] + name, r);
      AppendAssoc([pre[0]], pre[1..], name);
      assert [pre[0]] + pre[1..] == pre;
    }
  }

  /** Bracket removal keeps every other character, in order. */
  lemma {:induction false} RemoveBracketsKeepsText(s: string)
    ensures RemoveBrackets(s) == Without(s, {'[', ']'})
    decreases |s|
  {
    if s != [] {
      RemoveBracketsKeepsText(s[1..]);
    }
  }

  /** Bracket removal works piece by piece. */
  lemma RemoveBracketsAppend(a: string, b: string)
    ensures RemoveBrackets(a + b) == RemoveBrackets(a) + RemoveBrackets(b)
  {
    RemoveBracketsKeepsText(a + b);
    RemoveBracketsKeepsText(a);
    RemoveBracketsKeepsText(b);
    WithoutAppend(a, b, {'[', ']'});
  }

  /** `SkipWhile` is determined by its contract. */
  lemma SkipWhileIs(s: string, from: nat, skip: set<char>, k: nat)
    requires from <= k <= |s|
    requires forall i :: from <= i < k ==> s[i] in skip
    requires k < |s| ==> s[k] !in skip
    ensures SkipWhile(s, from, skip) == k
  {
  }

  /** Collapsing whitespace keeps every character it does not count as blank, in order. */
  lemma {:induction false} CollapseKeepsText(s: string, blank: set<char>)
    requires Whitespace <= blank
    ensures Without(CollapseWhitespace(s), blank) == Without(s, blank)
    decreases |s|
  {
    if s != [] {
      if s[0] in Whitespace {
        var k := SkipWhile(s, 0, Whitespace);
        CollapseKeepsText(s[k..], blank);
        WithoutAppend([' '], CollapseWhitespace(s[k..]), blank);
        assert s == s[..k] + s[k..];
        WithoutAppend(s[..k], s[k..], blank);
        WithoutAll(s[..k], blank);
      } else {
        CollapseKeepsText(s[1..], blank);
        WithoutAppend([s[0]], CollapseWhitespace(s[1..]), blank);
        assert s == [s[0]] + s[1..];
        WithoutAppend([s[0]], s[1..], blank);
      }
    }
  }

  /** Text with single spaces only and no blank at its end passes through the collapse unchanged. */
  lemma {:induction false} CollapseKeepsCleanPrefix(x: string, d: string)
    requires forall i :: 0 <= i < |x| && x[i] in Whitespace ==> x[i] == ' '
    requires forall i :: 0 < i < |x| && x[i] == ' ' ==> x[i - 1] != ' '
    requires x != [] ==> x[|x| - 1] !in Whitespace
    ensures CollapseWhitespace(x + d) == x + CollapseWhitespace(d)
    decreases |x|
  {
    if x == [] {
      assert x + d == d;
    } else {
      var s := x + d;
      assert s[0] == x[0] && s[1..] == x[1..] + d;
      CollapseKeepsCleanPrefix(x[1..], d);
      if x[0] in Whitespace {
        assert x[0] == ' ' && |x| > 1;
        assert x[1] != ' ';
        assert s[1] == x[1] && x[1] !in Whitespace;
        CollapseSingleBlank(s);
      } else {
        CollapseWordChar(s);
      }
      var c := CollapseWhitespace(d);
      AppendAssoc([x[0]], x[1..], c);
      assert [x[0]] + x[1..] == x;
    }
  }

  /** A lone whitespace character becomes one space. */
  lemma CollapseSingleBlank(s: string)
    requires |s| > 1 && s[0] in Whitespace && s[1] !in Whitespace
    ensures CollapseWhitespace(s) == [' '] + CollapseWhitespace(s[1..])
  {
    SkipWhileIs(s, 0, Whitespace, 1);
  }

  /** A character that is not whitespace is kept. */
  lemma CollapseWordChar(s: string)
    requires s != [] && s[0] !in Whitespace
    ensures CollapseWhitespace(s) == [s[0]] + CollapseWhitespace(s[1..])
  {
  }

  /** The collapse splits before a character that is not whitespace. */
  lemma {:induction false} CollapseSplitsBeforeWord(a: string, y: string)
    requires y != [] ==> y[0] !in Whitespace
    ensures CollapseWhitespace(a + y) == CollapseWhitespace(a) + CollapseWhitespace(y)
    decreases |a|
  {
    if a == [] {
      assert a + y == y;
    } else {
      var s := a + y;
      if a[0] in Whitespace {
        var k := SkipWhile(a, 0, Whitespace);
        SkipWhileIs(s, 0, Whitespace, k);
        assert s[k..] == a[k..] + y;
        CollapseSplitsBeforeWord(a[k..], y);
      } else {
        assert s[1..] == a[1..] + y;
        CollapseSplitsBeforeWord(a[1..], y);
      }
    }
  }

  /** Trimming keeps every character it does not count as blank, in order. */
  lemma TrimKeepsText(s: string, blank: set<char>)
    requires TrimChars <= blank
    ensures Without(Trim(s), blank) == Without(s, blank)
  {
    var b := TrimBounds(s);
    assert forall i :: 0 <= i < b.0 ==> s[i] in blank;
    assert forall i :: b.1 <= i < |s| ==> s[i] in blank;
    WithoutAroundSlice(s, b.0, b.1, blank);
  }

  /** Trimming stops at characters that are not trim characters. */
  lemma TrimBoundsAround(s: string, j: nat, k: nat)
    requires j <= k < |s| && s[j] !in TrimChars && s[k] !in TrimChars
    ensures TrimBounds(s).0 <= j && k < TrimBounds(s).1
  {
  }

  /** A word that neither starts nor ends with a trim character survives the trim. */
  lemma TrimKeepsInnerWord(p: string, x: string, q: string)
    requires x != [] && x[0] !in TrimChars && x[|x| - 1] !in TrimChars
    ensures Occurs(Trim(p + x + q), x)
  {
    var s := p + x + q;
    assert s[|p|..|p| + |x|] == x;
    TrimBoundsAround(s, |p|, |p| + |x| - 1);
    OccursInSlice(s, x, TrimBounds(s).0, TrimBounds(s).1, |p|);
  }

  /** An occurrence inside the slice `s[lo..hi]` is an occurrence in that slice. */
  lemma OccursInSlice(s: string, x: string, lo: nat, hi: nat, j: nat)
    requires lo <= j && j + |x| <= hi <= |s| && s[j..j + |x|] == x
    ensures Occurs(s[lo..hi], x)
  {
    var t := s[lo..hi];
    var u := t[j - lo..j - lo + |x|];
    assert forall i :: 0 <= i < |u| ==> u[i] == s[j..j + |x|][i];
    assert u == x;
    OccursAt(t, x, j - lo);
  }

  /** The characters `cleanText` may drop besides brackets: whitespace and trim characters. */
  const Blank: set<char> := Whitespace + TrimChars

  /**
   * Text without brackets loses only blanks when cleaned: every other
   * character survives, in order.
   */
  lemma CleanTextKeepsText(raw: string)
    requires '[' !in raw && ']' !in raw
    ensures Without(CleanText(raw), Blank) == Without(raw, Blank)
  {
    RewriteMentionsWithoutBrackets(raw);
    CollapseKeepsText(raw, Blank);
    TrimKeepsText(CollapseWhitespace(raw), Blank);
  }

  /**
   * The display name of a mention that follows text without `[` appears in
   * the cleaned text, whatever follows the mention.
   */
  lemma MentionNameSurvives(pre: string, target: string, name: string, rest: string)
    requires '[' !in pre
    requires target != [] && '|' !in target && ']' !in target
    requires name != [] && IsClean(name)
    ensures Occurs(CleanText(pre + (['['] + target + ['|'] + name + [']'] + rest)), name)
  {
    var raw := pre + (['['] + target + ['|'] + name + [']'] + rest);
    MentionAfterPlainText(pre, target, name, rest);
    var tail := RemoveBrackets(RewriteMentions(rest));
    BracketsAroundName(pre, name, RewriteMentions(rest));
    CollapseAroundName(RemoveBrackets(pre), name, tail);
    TrimKeepsInnerWord(CollapseWhitespace(RemoveBrackets(pre)), name, CollapseWhitespace(tail));
  }

  lemma {:induction false} BracketsAroundName(pre: string, name: string, rest: string)
    requires '[' !in name && ']' !in name
    ensures RemoveBrackets(pre + name + rest) == RemoveBrackets(pre) + (name + RemoveBrackets(rest))
    decreases |pre|
  {
    var s := pre + name + rest;
    if pre == [] {
      assert s == name + rest;
      RemoveBracketsAppend(name, rest);
    } else {
      assert s[0] == pre[0] && s[1..] == pre[1..] + name + rest;
      BracketsAroundName(pre[1..], name, rest);
      var h := if pre[0] == '[' || pre[0] == ']' then [] else [pre[0]];
      var t, x := RemoveBrackets(pre[1..]), name + RemoveBrackets(rest);
      assert RemoveBrackets(s) == h + (t + x);
      assert RemoveBrackets(pre) == h + t;
      AppendAssoc(h, t, x);
    }
  }

  lemma CollapseAroundName(front: string, name: string, back: string)
    requires name != [] && IsClean(name)
    ensures CollapseWhitespace(front + (name + back)) == CollapseWhitespace(front) + name + CollapseWhitespace(back)
  {
    assert name[0] !in Whitespace;
    CollapseSplitsBeforeWord(front, name + back);
    CollapseKeepsCleanPrefix(name, back);
    var f, b := CollapseWhitespace(front), CollapseWhitespace(back);
    AppendAssoc(f, name, b);
  }

  // -------------------------------------------------------------- truncateText

  /**
   * `truncateText(t, n)`: `t` itself when it has at most `n` characters;
   * otherwise the first `n` characters, cut before their last space when
   * they hold one, followed by "...".
   */
  function Truncate(t: string, n: nat): (r: string)
    ensures |t| <= n ==> r == t
    ensures |t| > n ==> |r| >= 3 && r[|r| - 3..] == "..." && |r| - 3 <= n && r[..|r| - 3] <= t
    ensures |t| > n && ' ' !in t[..n] ==> r == t[..n] + "..."
    ensures |t| > n && ' ' in t[..n] ==> |r| - 3 < n && t[|r| - 3] == ' ' && ' ' !in t[|r| - 2..n]
  {
    if |t| <= n then t
    else
      var cut := t[..n];
      match LastIndexOf(cut, ' ')
      case Some(k) => cut[..k] + "..."
      case None => cut + "..."
  }

  // ----------------------------------------------------------- normalizeZenUrl

  /**
   * For `s` starting with `?`: the end of the match of
   * `\?(share_to|utm_[^=]+=[^&]+|from|cl4url|persist_).*` (flag `i`) at the
   * start of `s`, if there is one. `.*` stops at the first newline.
   */
  function TrackingTailEnd(s: string): (e: Option<nat>)
    requires s != [] && s[0] == '?'
    ensures e.Some? ==> 1 <= e.value <= |s| && (e.value < |s| ==> s[e.value] == '\n')
  {
    var q := s[1..];
    if StartsWithCI(q, "share_to") || StartsWithCI(q, "from") || StartsWithCI(q, "cl4url") || StartsWithCI(q, "persist_") then
      Some(SkipUntil(s, 1, {'\n'}))
    else if StartsWithCI(q, "utm_") && |s| > 5 && s[5] != '=' then
      var eq := SkipUntil(s, 5, {'='});
      if eq + 1 < |s| && s[eq + 1] != '&' then Some(SkipUntil(s, SkipUntil(s, eq + 1, {'&'}), {'\n'}))
      else None
    else None
  }

  /** A tracking tail starts at the `?` exactly when a parameter on the deny list follows it. */
  lemma TrackingTailIff(s: string)
    requires s != [] && s[0] == '?'
    ensures TrackingTailEnd(s).Some? <==> TrackingParamAt(s)
  {
    if StartsWithCI(s[1..], "utm_") && |s| > 5 && s[5] != '=' {
      UtmValueUnique(s);
      var eq := SkipUntil(s, 5, {'='});
      if eq + 1 < |s| && s[eq + 1] != '&' {
        assert UtmValueAt(s, eq);
      }
    }
  }

  /**
   * The `utm_[^=]+=[^&]+` alternative, for `s` starting with `?utm_`: the
   * first `=` after a non-empty name sits at `eq` and a character other than
   * `&` follows it.
   */
  predicate UtmValueAt(s: string, eq: nat) {
    && 5 < eq && eq + 1 < |s| && s[eq] == '=' && s[eq + 1] != '&'
    && forall k :: 5 <= k < eq ==> s[k] != '='
  }

  /** A parameter on the deny list of `normalizeZenUrl` follows the `?` that starts `s`. */
  predicate TrackingParamAt(s: string)
    requires s != [] && s[0] == '?'
  {
    || StartsWithCI(s[1..], "share_to")
    || StartsWithCI(s[1..], "from")
    || StartsWithCI(s[1..], "cl4url")
    || StartsWithCI(s[1..], "persist_")
    || (StartsWithCI(s[1..], "utm_") && exists eq :: 5 < eq < |s| && UtmValueAt(s, eq))
  }

  /** The `=` of a `utm_` parameter is the first one after its name. */
  lemma UtmValueUnique(s: string)
    requires |s| > 5
    ensures forall eq :: UtmValueAt(s, eq) ==> eq == SkipUntil(s, 5, {'='})
  {
    forall eq | UtmValueAt(s, eq)
      ensures eq == SkipUntil(s, 5, {'='})
    {
      SkipUntilIs(s, 5, {'='}, eq);
    }
  }

  /** The first `preg_replace` of `normalizeZenUrl`: every tracking tail removed. */
  function StripTracking(s: string): (r: string)
    ensures |r| <= |s|
    decreases |s|
  {
    if s == [] then []
    else if s[0] == '?' && TrackingTailEnd(s).Some? then StripTracking(s[TrackingTailEnd(s).value..])
    else [s[0]] + StripTracking(s[1..])
  }

  /** A `?` followed by a parameter off the deny list is kept, and stripping goes on after it. */
  lemma StripKeepsOtherParam(s: string)
    requires s != [] && s[0] == '?' && !TrackingParamAt(s)
    ensures StripTracking(s) == "?" + StripTracking(s[1..])
  {
    TrackingTailIff(s);
  }

  /** `str_replace('dzen.ru', 'zen.yandex.ru', s)`. */
  function ReplaceMirror(s: string): (r: string)
    ensures |s| <= |r|
    decreases |s|
  {
    if s == [] then []
    else if "dzen.ru" <= s then "zen.yandex.ru" + ReplaceMirror(s[7..])
    else [s[0]] + ReplaceMirror(s[1..])
  }

  /** A replaced string starting with a tail of "zen.ru" comes from one that starts with it. */
  lemma {:induction false} ReplacedStartsBack(t: string, j: nat)
    requires j < 6
    ensures "zen.ru"[j..] <= ReplaceMirror(t) ==> "zen.ru"[j..] <= t
    decreases |t|
  {
    if t != [] && !("dzen.ru" <= t) && j < 5 {
      ReplacedStartsBack(t[1..], j + 1);
      assert ReplaceMirror(t) == [t[0]] + ReplaceMirror(t[1..]);
      ConsPrefix("zen.ru"[j..], t[0], ReplaceMirror(t[1..]));
      ConsPrefix("zen.ru"[j..], t[0], t[1..]);
      assert [t[0]] + t[1..] == t;
    } else if t != [] && "dzen.ru" <= t {
      assert ReplaceMirror(t)[4] == 'y';
    }
  }

  /** A non-empty prefix of `[c] + r` starts with `c` and continues with a prefix of `r`. */
  lemma ConsPrefix(p: string, c: char, r: string)
    requires p != []
    ensures p <= [c] + r <==> p[0] == c && p[1..] <= r
  {
    if p[0] == c && p[1..] <= r {
      assert p == [c] + p[1..];
    }
  }

  /** Prefixing a text free of "dzen.ru" with one whose every `d` is followed by something other than `z` keeps it free. */
  lemma {:induction false} NoMirrorJoin(c: string, x: string)
    requires !Occurs(x, "dzen.ru")
    requires forall i :: 0 <= i < |c| && c[i] == 'd' ==> i + 1 < |c| && c[i + 1] != 'z'
    ensures !Occurs(c + x, "dzen.ru")
    decreases |c|
  {
    if c == [] {
      assert c + x == x;
    } else {
      NoMirrorJoin(c[1..], x);
      assert (c + x)[1..] == c[1..] + x;
      assert (c + x)[0] == c[0];
      if c[0] == 'd' {
        assert (c + x)[1] == c[1];
      }
    }
  }

  lemma CanonicalSuffixNoMirror(c: string, x: string)
    requires c == "zen.yandex.ru" && !Occurs(x, "dzen.ru")
    ensures !Occurs(c + x, "dzen.ru")
  {
    NoMirrorJoin(c, x);
  }

  /** After the replacement no "dzen.ru" is left, not even one formed across a replaced host. */
  lemma {:induction false} NoMirrorAfterReplace(s: string)
    ensures !Occurs(ReplaceMirror(s), "dzen.ru")
    decreases |s|
  {
    if s != [] {
      if "dzen.ru" <= s {
        NoMirrorAfterReplace(s[7..]);
        CanonicalSuffixNoMirror("zen.yandex.ru", ReplaceMirror(s[7..]));
      } else {
        NoMirrorAfterReplace(s[1..]);
        ReplacedStartsBack(s[1..], 0);
        var r := ReplaceMirror(s[1..]);
        assert ReplaceMirror(s) == [s[0]] + r;
        assert ([s[0]] + r)[1..] == r;
        assert "dzen.ru" <= [s[0]] + r ==> "zen.ru" <= r;
      }
    }
  }

  const UrlTrailers: set<char> := {'?', '&', '/'}

  /** What `normalizeZenUrl` guarantees: no trailing `?`, `&` or `/`, and no `dzen.ru`. */
  predicate IsNormalized(url: string) {
    (url == [] || url[|url| - 1] !in UrlTrailers) && !Occurs(url, "dzen.ru")
  }

  /**
   * `normalizeZenUrl`: tracking tails dropped, the `dzen.ru` mirror host
   * rewritten to `zen.yandex.ru`, and trailing `?`, `&`, `/` removed.
   */
  function NormalizeZenUrl(url: string): (r: string)
    ensures IsNormalized(r)
  {
    var replaced := ReplaceMirror(StripTracking(url));
    var r := replaced[..TrailingStart(replaced, UrlTrailers)];
    NoMirrorAfterReplace(StripTracking(url));
    OccursInPrefix(r, replaced, "dzen.ru");
    r
  }

  lemma {:induction false} StripTrackingPlainPrefix(base: string, rest: string)
    requires '?' !in base
    ensures StripTracking(base + rest) == base + StripTracking(rest)
    decreases |base|
  {
    if base != [] {
      var s := base + rest;
      assert s[0] == base[0] && s[1..] == base[1..] + rest;
      StripKeepsFirst(s);
      StripTrackingPlainPrefix(base[1..], rest);
      var t := StripTracking(rest);
      AppendAssoc([base[0]], base[1..], t);
      assert [base[0]] + base[1..] == base;
    } else {
      assert base + rest == rest;
    }
  }

  lemma {:induction false} ReplaceMirrorPlainPrefix(a: string, b: string)
    requires 'd' !in a
    ensures ReplaceMirror(a + b) == a + ReplaceMirror(b)
    decreases |a|
  {
    if a != [] {
      ReplaceMirrorPlainPrefix(a[1..], b);
      assert (a + b)[1..] == a[1..] + b;
      assert (a + b)[0] == a[0];
    } else {
      assert a + b == b;
    }
  }

  /**
   * A URL without `?` and the same URL followed by a one-line tracking tail
   * (`?utm_source=share`, `?from=...`, ...) normalize to the same string.
   */
  lemma NormalizeIgnoresTrackingTail(base: string, tail: string)
    requires '?' !in base
    requires tail != [] && tail[0] == '?' && '\n' !in tail && TrackingTailEnd(tail).Some?
    ensures NormalizeZenUrl(base + tail) == NormalizeZenUrl(base)
  {
    StripTrackingPlainPrefix(base, tail);
    StripTrackingPlainPrefix(base, []);
    assert TrackingTailEnd(tail).value == |tail|;
    assert base + [] == base;
  }

  /** `?utm_<name>=<value>...` is a tracking tail whenever name and value are non-empty and value does not start with `&`. */
  lemma UtmIsTrackingTail(name: string, value: string)
    requires name != [] && '=' !in name
    requires value != [] && value[0] != '&'
    ensures TrackingTailEnd("?utm_" + name + "=" + value).Some?
  {
    var s := "?utm_" + name + "=" + value;
    assert s[1..5] == "utm_";
    assert s[5] == name[0];
    assert s[5..5 + |name|] == name;
    SkipUntilIs(s, 5, {'='}, 5 + |name|);
    assert s[6 + |name|] == value[0];
  }

  lemma ShareTailIsTracking(share: string)
    requires share == "?utm_source=share"
    ensures share[0] == '?' && '\n' !in share && TrackingTailEnd(share).Some?
  {
    assert share[5] != '=' && share[11] == '=' && share[12] != '&';
    assert StartsWithCI(share[1..], "utm_");
    SkipUntilIs(share, 5, {'='}, 11);
  }

  lemma {:induction false} ReplaceMirrorWithoutHost(s: string)
    requires !Occurs(s, "dzen.ru")
    ensures ReplaceMirror(s) == s
    decreases |s|
  {
    if s != [] {
      ReplaceMirrorWithoutHost(s[1..]);
    }
  }

  /**
   * A `dzen.ru` article link shared with `?utm_source=share` normalizes to the
   * `zen.yandex.ru` link with the same path.
   */
  lemma NormalizeSharedMirrorPath(scheme: string, mirror: string, path: string, share: string)
    requires scheme == "https://" && mirror == "dzen.ru" && share == "?utm_source=share"
    requires '?' !in path && !Occurs(path, "dzen.ru")
    requires path != [] && path[|path| - 1] !in UrlTrailers
    ensures NormalizeZenUrl(scheme + mirror + path + share) == scheme + "zen.yandex.ru" + path
  {
    var base := scheme + mirror + path;
    assert '?' !in scheme + mirror;
    assert '?' !in base;
    DropShareTail(base, share);
    var replaced := scheme + "zen.yandex.ru" + path;
    MirrorPathReplaced(scheme, mirror, path);
    assert replaced[|replaced| - 1] == path[|path| - 1];
    NormalizeWithoutQuery(base, replaced);
  }

  /** Dropping a `?utm_source=share` tail from a query-free link. */
  lemma DropShareTail(base: string, share: string)
    requires '?' !in base && share == "?utm_source=share"
    ensures NormalizeZenUrl(base + share) == NormalizeZenUrl(base)
  {
    ShareTailIsTracking(share);
    NormalizeIgnoresTrackingTail(base, share);
  }

  /** The mirror host in front of a path free of it is replaced once. */
  lemma MirrorPathReplaced(scheme: string, mirror: string, path: string)
    requires scheme == "https://" && mirror == "dzen.ru"
    requires !Occurs(path, "dzen.ru")
    ensures ReplaceMirror(scheme + mirror + path) == scheme + "zen.yandex.ru" + path
  {
    AppendAssoc(scheme, mirror, path);
    ReplaceMirrorPlainPrefix(scheme, mirror + path);
    MirrorHeadReplaced(mirror, path);
    ReplaceMirrorWithoutHost(path);
    AppendAssoc(scheme, "zen.yandex.ru", path);
  }

  lemma MirrorHeadReplaced(mirror: string, rest: string)
    requires mirror == "dzen.ru"
    ensures ReplaceMirror(mirror + rest) == "zen.yandex.ru" + ReplaceMirror(rest)
  {
    assert (mirror + rest)[7..] == rest;
  }

  /** A link with no query whose replaced form ends in a path character. */
  lemma NormalizeWithoutQuery(base: string, replaced: string)
    requires '?' !in base && replaced == ReplaceMirror(base)
    requires replaced != [] && replaced[|replaced| - 1] !in UrlTrailers
    ensures NormalizeZenUrl(base) == replaced
  {
    StripTrackingPlainPrefix(base, []);
    assert base + [] == base;
  }

  /** The example link: `https://dzen.ru/media/id/abc?utm_source=share`. */
  lemma NormalizeSharedMirrorLink(path: string)
    requires path == "/media/id/abc"
    ensures NormalizeZenUrl("https://" + "dzen.ru" + path + "?utm_source=share")
         == "https://" + "zen.yandex.ru" + path
  {
    assert '?' !in path && 'z' !in path;
    NotOccursMissingChar(path, "dzen.ru", 1);
    NormalizeSharedMirrorPath("https://", "dzen.ru", path, "?utm_source=share");
  }

  /**
   * A URL holding a newline can change again when normalized a second
   * time: `[^=]` in `utm_[^=]+` crosses the newline that `.*` stops at.
   */
  lemma NormalizeTwiceDiffers(u: string, v: string)
    requires u == "?utm_a?from=&\n=b" && v == "?utm_a\n=b"
    ensures NormalizeZenUrl(u) == v && NormalizeZenUrl(NormalizeZenUrl(u)) == []
  {
    NormalizeOnce(u, v);
    NormalizeAgain(v);
  }

  lemma FirstQueryKept(u: string)
    requires u == "?utm_a?from=&\n=b"
    ensures TrackingTailEnd(u).None?
  {
    assert StartsWithCI(u[1..], "utm_");
    SkipUntilIs(u, 5, {'='}, 11);
  }

  lemma FromTailDropped(w: string)
    requires w == "?from=&\n=b"
    ensures TrackingTailEnd(w) == Some(7)
  {
    assert StartsWithCI(w[1..], "from");
    SkipUntilIs(w, 1, {'\n'}, 7);
  }

  lemma UtmTailDropped(v: string)
    requires v == "?utm_a\n=b"
    ensures TrackingTailEnd(v) == Some(|v|)
  {
    assert v[1] == 'u' && Lower(v[1]) == 'u';
    assert Lower(v[1..][0]) != "share_to"[0] && Lower(v[1..][0]) != "from"[0];
    assert Lower(v[1..][0]) != "cl4url"[0] && Lower(v[1..][0]) != "persist_"[0];
    assert StartsWithCI(v[1..], "utm_");
    SkipUntilIs(v, 5, {'='}, 7);
    SkipUntilIs(v, 8, {'&'}, 9);
    SkipUntilIs(v, 9, {'\n'}, 9);
  }

  lemma StripFromTail(w: string, t: string)
    requires w == "?from=&\n=b" && t == "\n=b"
    ensures StripTracking(w) == t
  {
    FromTailDropped(w);
    assert w[7..] == t;
    StripTrackingPlainPrefix(t, []);
    assert t + [] == t;
  }

  /** A query that is no tracking tail is kept, with the plain text after it. */
  lemma StripKeepsQuery(u: string, head: string, w: string)
    requires u != [] && u[0] == '?' && u[1..] == head + w
    requires '?' !in head && TrackingTailEnd(u).None?
    ensures StripTracking(u) == ['?'] + head + StripTracking(w)
  {
    StripKeepsFirst(u);
    assert u[1..] == head + w;
    StripTrackingPlainPrefix(head, w);
    var t := StripTracking(w);
    AppendAssoc([u[0]], head, t);
  }

  /** A first character that starts no tracking tail is kept. */
  lemma StripKeepsFirst(u: string)
    requires u != [] && !(u[0] == '?' && TrackingTailEnd(u).Some?)
    ensures StripTracking(u) == [u[0]] + StripTracking(u[1..])
  {
  }

  lemma StripKeepsUtmPrefix(u: string, v: string)
    requires u == "?utm_a?from=&\n=b" && v == "?utm_a\n=b"
    ensures StripTracking(u) == v
  {
    FirstQueryKept(u);
    assert u[1..] == u[1..6] + u[6..];
    StripUtmParts(u, u[1..6], u[6..], v[6..]);
    assert v == ['?'] + u[1..6] + v[6..];
  }

  lemma StripUtmParts(u: string, head: string, w: string, t: string)
    requires u != [] && u[0] == '?' && u[1..] == head + w && TrackingTailEnd(u).None?
    requires head == "utm_a" && w == "?from=&\n=b" && t == "\n=b"
    ensures StripTracking(u) == ['?'] + head + t
  {
    StripFromTail(w, t);
    StripKeepsQuery(u, head, w);
  }

  lemma NormalizeOnce(u: string, v: string)
    requires u == "?utm_a?from=&\n=b" && v == "?utm_a\n=b"
    ensures NormalizeZenUrl(u) == v
  {
    StripKeepsUtmPrefix(u, v);
    EndsPlain(v);
    NormalizeStripped(u, v);
  }

  /**
   * A URL whose only query starts with a parameter off the deny list, and
   * which has no mirror host and no trailing `?`, `&` or `/`, is already normalized.
   */
  lemma NormalizeKeepsPlainQuery(base: string, q: string)
    requires '?' !in base && '?' !in q && q != [] && q[|q| - 1] !in UrlTrailers
    requires !TrackingParamAt("?" + q)
    requires !Occurs(base + "?" + q, "dzen.ru")
    ensures NormalizeZenUrl(base + "?" + q) == base + "?" + q
  {
    var t := "?" + q;
    AppendAssoc(base, "?", q);
    StripTrackingPlainPrefix(base, t);
    StripKeepsOtherParam(t);
    assert t[1..] == q;
    StripTrackingPlainPrefix(q, []);
    assert q + [] == q;
    var u := base + t;
    assert u[|u| - 1] == q[|q| - 1];
    NormalizeStripped(u, u);
  }

  /** A stripped URL without the mirror host or a trailing `?`, `&` or `/` is the normalized one. */
  lemma NormalizeStripped(u: string, v: string)
    requires StripTracking(u) == v && !Occurs(v, "dzen.ru") && TrailingStart(v, UrlTrailers) == |v|
    ensures NormalizeZenUrl(u) == v
  {
    ReplaceMirrorWithoutHost(v);
    assert v[..|v|] == v;
  }

  lemma EndsPlain(v: string)
    requires v == "?utm_a\n=b"
    ensures TrailingStart(v, UrlTrailers) == |v| && !Occurs(v, "dzen.ru")
  {
    assert v[|v| - 1] == 'b';
    NotOccursMissingChar(v, "dzen.ru", 0);
  }

  lemma NormalizeAgain(v: string)
    requires v == "?utm_a\n=b"
    ensures NormalizeZenUrl(v) == []
  {
    UtmTailDropped(v);
    assert StripTracking(v) == [];
  }

  // ------------------------------------------------------------- cleanImageUrl

  /** `preg_replace('/&from=bu&cs=[^&]+/', '', s)`. */
  function DropFromBu(s: string): (r: string)
    ensures |r| <= |s|
    ensures '&' !in s ==> r == s
    decreases |s|
  {
    if s == [] then []
    else if "&from=bu&cs=" <= s && |s| > 12 && s[12] != '&' then
      assert s[0] == '&';
      DropFromBu(s[SkipUntil(s, 13, {'&'})..])
    else [s[0]] + DropFromBu(s[1..])
  }

  /** `preg_replace('/\?as=[^&]+/', '?', s)`. */
  function CollapseAsParam(s: string): (r: string)
    ensures |r| <= |s|
    ensures '?' !in s ==> r == s
    decreases |s|
  {
    if s == [] then []
    else if "?as=" <= s && |s| > 4 && s[4] != '&' then
      assert s[0] == '?';
      "?" + CollapseAsParam(s[SkipUntil(s, 5, {'&'})..])
    else [s[0]] + CollapseAsParam(s[1..])
  }

  /** `preg_replace('/\?$/', '', s)`: `$` also matches just before a final newline. */
  function DropFinalQuestionMark(s: string): (r: string)
    ensures |r| <= |s|
    ensures '?' !in s ==> r == s
  {
    if |s| >= 1 && s[|s| - 1] == '?' then s[..|s| - 1]
    else if |s| >= 2 && s[|s| - 2..] == "?\n" then
      assert s[|s| - 2] == s[|s| - 2..][0];
      s[..|s| - 2] + "\n"
    else s
  }

  /** The `?`/`#`-free parts `parse_url` reports: scheme, host and path. */
  datatype UrlParts = UrlParts(scheme: Option<string>, host: Option<string>, path: string)

  /**
   * A hand-written stand-in for `parse_url` on absolute URLs: the scheme is
   * what precedes "://", the host is the authority without user info and
   * port, the path runs up to the query or fragment.
   */
  function ParseUrl(u: string): (p: UrlParts)
    ensures p.scheme.Some? ==> '?' !in p.scheme.value
    ensures p.host.Some? ==> '?' !in p.host.value
    ensures '?' !in p.path
  {
    var k := SkipUntil(u, 0, {':', '/', '?', '#'});
    if 0 < k && "://" <= u[k..] then
      var a := k + 3;
      var authorityEnd := SkipUntil(u, a, {'/', '?', '#'});
      var authority := u[a..authorityEnd];
      assert '?' !in authority;
      UrlParts(Some(u[..k]), Some(HostOf(authority)), u[authorityEnd..SkipUntil(u, authorityEnd, {'?', '#'})])
    else
      UrlParts(None, None, u[..SkipUntil(u, 0, {'?', '#'})])
  }

  /** The host of an authority `user@host:port`: after the last `@`, before the next `:`. */
  function HostOf(authority: string): (host: string)
    ensures forall c :: c in host ==> c in authority
  {
    var hostStart := match LastIndexOf(authority, '@') case Some(i) => i + 1 case None => 0;
    var host := authority[hostStart..SkipUntil(authority, hostStart, {':'})];
    assert forall i :: 0 <= i < |host| ==> host[i] == authority[hostStart + i];
    host
  }

  function OrElse(o: Option<string>, d: string): string {
    if o.Some? then o.value else d
  }

  const MaxImageUrlLength := 500

  /**
   * `cleanImageUrl`: null for a falsy URL; VK's `&from=bu&cs=` and `?as=`
   * parameters dropped and a final `?` removed; a result longer than 500
   * characters is cut down to scheme, host and path.
   */
  function CleanImageUrl(url: Option<string>): (r: Option<string>)
    ensures r.None? <==> !Truthy(url)
    ensures r.Some? ==> |r.value| <= MaxImageUrlLength || '?' !in r.value
    ensures Truthy(url) && |url.value| <= MaxImageUrlLength ==> |r.value| <= |url.value|
    ensures Truthy(url) && '?' !in url.value && '&' !in url.value && |url.value| <= MaxImageUrlLength ==> r == url
  {
    if !Truthy(url) then None
    else
      var s := DropFinalQuestionMark(CollapseAsParam(DropFromBu(url.value)));
      if |s| > MaxImageUrlLength then
        var parts := ParseUrl(s);
        Some(OrElse(parts.scheme, "https") + "://" + OrElse(parts.host, "") + parts.path)
      else Some(s)
  }

  lemma DropFromBuPlainStep(s: string)
    requires s != [] && s[0] != '&'
    ensures DropFromBu(s) == [s[0]] + DropFromBu(s[1..])
  {
  }

  lemma DropFromBuKeepStep(s: string, tag: string)
    requires tag == "&from=bu&cs=" && s != [] && !(tag <= s)
    ensures DropFromBu(s) == [s[0]] + DropFromBu(s[1..])
  {
  }

  /** A URL without `&from=bu&cs=`, such as one carrying only `&quality=` and `&sign=`, is kept. */
  lemma {:induction false} DropFromBuWithoutTag(s: string, tag: string)
    requires tag == "&from=bu&cs=" && !Occurs(s, tag)
    ensures DropFromBu(s) == s
    decreases |s|
  {
    if s != [] {
      DropFromBuKeepStep(s, tag);
      DropFromBuWithoutTag(s[1..], tag);
    }
  }

  lemma {:induction false} DropFromBuPlainPrefix(a: string, t: string)
    requires '&' !in a
    ensures DropFromBu(a + t) == a + DropFromBu(t)
    decreases |a|
  {
    if a == [] {
      assert a + t == t;
    } else {
      var s := a + t;
      assert s[0] == a[0] && s[0] != '&' && s[1..] == a[1..] + t;
      DropFromBuPlainStep(s);
      DropFromBuPlainPrefix(a[1..], t);
      AppendAssoc([a[0]], a[1..], DropFromBu(t));
      assert [a[0]] + a[1..] == a;
    }
  }

  /** `&from=bu&cs=<v>` is removed, up to the next `&`; the text before it is kept. */
  lemma DropFromBuRemoves(a: string, tag: string, v: string, b: string)
    requires tag == "&from=bu&cs="
    requires '&' !in a && v != [] && '&' !in v && (b == [] || b[0] == '&')
    ensures DropFromBu(a + tag + v + b) == a + DropFromBu(b)
  {
    var t := tag + v + b;
    AppendAssoc(a, tag, v);
    AppendAssoc(a, tag + v, b);
    AppendAssoc(tag, v, b);
    DropFromBuPlainPrefix(a, t);
    DropFromBuAtTag(tag, v, b);
  }

  lemma DropFromBuAtTag(tag: string, v: string, b: string)
    requires tag == "&from=bu&cs="
    requires v != [] && '&' !in v && (b == [] || b[0] == '&')
    ensures DropFromBu(tag + v + b) == DropFromBu(b)
  {
    var t := tag + v + b;
    assert t[..12] == tag && t[12] == v[0];
    assert forall k :: 13 <= k < 12 + |v| ==> t[k] == v[k - 12];
    SkipUntilIs(t, 13, {'&'}, 12 + |v|);
    assert t[12 + |v|..] == b;
  }

  lemma CollapseAsPlainStep(s: string)
    requires s != [] && s[0] != '?'
    ensures CollapseAsParam(s) == [s[0]] + CollapseAsParam(s[1..])
  {
  }

  lemma CollapseAsKeepStep(s: string, tag: string)
    requires tag == "?as=" && s != [] && !(tag <= s)
    ensures CollapseAsParam(s) == [s[0]] + CollapseAsParam(s[1..])
  {
  }

  /** A URL without `?as=` is kept. */
  lemma {:induction false} CollapseAsWithoutTag(s: string, tag: string)
    requires tag == "?as=" && !Occurs(s, tag)
    ensures CollapseAsParam(s) == s
    decreases |s|
  {
    if s != [] {
      CollapseAsKeepStep(s, tag);
      CollapseAsWithoutTag(s[1..], tag);
    }
  }

  lemma {:induction false} CollapseAsPlainPrefix(a: string, t: string)
    requires '?' !in a
    ensures CollapseAsParam(a + t) == a + CollapseAsParam(t)
    decreases |a|
  {
    if a == [] {
      assert a + t == t;
    } else {
      var s := a + t;
      assert s[0] == a[0] && s[0] != '?' && s[1..] == a[1..] + t;
      CollapseAsPlainStep(s);
      CollapseAsPlainPrefix(a[1..], t);
      AppendAssoc([a[0]], a[1..], CollapseAsParam(t));
      assert [a[0]] + a[1..] == a;
    }
  }

  /** `?as=<v>` becomes `?`, up to the next `&`; the text before it is kept. */
  lemma CollapseAsRewrites(a: string, tag: string, v: string, b: string)
    requires tag == "?as="
    requires '?' !in a && v != [] && '&' !in v && (b == [] || b[0] == '&')
    ensures CollapseAsParam(a + tag + v + b) == a + "?" + CollapseAsParam(b)
  {
    var t := tag + v + b;
    AppendAssoc(a, tag, v);
    AppendAssoc(a, tag + v, b);
    AppendAssoc(tag, v, b);
    CollapseAsPlainPrefix(a, t);
    CollapseAsAtTag(tag, v, b);
    AppendAssoc(a, "?", CollapseAsParam(b));
  }

  lemma CollapseAsAtTag(tag: string, v: string, b: string)
    requires tag == "?as="
    requires v != [] && '&' !in v && (b == [] || b[0] == '&')
    ensures CollapseAsParam(tag + v + b) == "?" + CollapseAsParam(b)
  {
    var t := tag + v + b;
    assert t[..4] == tag && t[4] == v[0];
    assert forall k :: 5 <= k < 4 + |v| ==> t[k] == v[k - 4];
    SkipUntilIs(t, 5, {'&'}, 4 + |v|);
    assert t[4 + |v|..] == b;
  }

  /** A final `?` is dropped, and so is a `?` just before a final newline. */
  lemma DropFinalQuestionMarkEnds(a: string)
    ensures DropFinalQuestionMark(a + "?") == a
    ensures DropFinalQuestionMark(a + "?\n") == a + "\n"
  {
    assert (a + "?")[..|a|] == a;
    var s := a + "?\n";
    assert s[|s| - 1] == '\n' && s[|s| - 2..] == "?\n" && s[..|s| - 2] == a;
  }

  /** A string ending in neither `?` nor a newline is kept. */
  lemma DropFinalQuestionMarkKeeps(s: string)
    requires s != [] && s[|s| - 1] != '?' && s[|s| - 1] != '\n'
    ensures DropFinalQuestionMark(s) == s
  {
    assert |s| >= 2 ==> s[|s| - 2..][1] == s[|s| - 1];
  }

  /** A character `parse_url` accepts in a scheme: a letter, a digit, `+`, `.` or `-`. */
  predicate SchemeChar(c: char) {
    'a' <= c <= 'z' || 'A' <= c <= 'Z' || '0' <= c <= '9' || c == '+' || c == '.' || c == '-'
  }

  /** A character `parse_url` keeps in a component; it turns control characters into `_`. */
  predicate PrintableChar(c: char) {
    ' ' <= c && c != '\U{7F}'
  }

  /**
   * The parts of an absolute URL that `parse_url` separates at its delimiters
   * and returns unaltered: a valid scheme, a non-empty host without port or
   * user, a path, and no control characters.
   */
  predicate AbsoluteParts(scheme: string, host: string, path: string) {
    && scheme != [] && host != []
    && (forall i :: 0 <= i < |scheme| ==> SchemeChar(scheme[i]))
    && (forall i :: 0 <= i < |host| ==> host[i] !in {'/', '?', '#', '@', ':'} && PrintableChar(host[i]))
    && (path == [] || path[0] == '/') && '?' !in path && '#' !in path
    && (forall i :: 0 <= i < |path| ==> PrintableChar(path[i]))
  }

  /** `ParseUrl` at the delimiter positions of an absolute URL. */
  lemma ParseUrlAt(u: string, k: nat, he: nat, pe: nat)
    requires 0 < k && k + 3 < he <= pe <= |u| && u[k..k + 3] == "://"
    requires forall i :: 0 <= i < k ==> SchemeChar(u[i])
    requires forall i :: k + 3 <= i < he ==> u[i] !in {'/', '?', '#', '@', ':'}
    requires forall i :: k + 3 <= i < pe ==> PrintableChar(u[i])
    requires he < |u| ==> u[he] in {'/', '?', '#'}
    requires forall i :: he <= i < pe ==> u[i] !in {'?', '#'}
    requires pe < |u| ==> u[pe] in {'?', '#'}
    ensures ParseUrl(u) == UrlParts(Some(u[..k]), Some(u[k + 3..he]), u[he..pe])
  {
    assert forall i :: 0 <= i < k ==> u[i] !in {':', '/', '?', '#'};
    SplitAtDelimiters(u, k, he, pe);
  }

  /** The stand-in splits at the first delimiters after the scheme, the authority and the path. */
  lemma SplitAtDelimiters(u: string, k: nat, he: nat, pe: nat)
    requires 0 < k && k + 3 <= he <= pe <= |u| && u[k..k + 3] == "://"
    requires forall i :: 0 <= i < k ==> u[i] !in {':', '/', '?', '#'}
    requires forall i :: k + 3 <= i < he ==> u[i] !in {'/', '?', '#', '@', ':'}
    requires he < |u| ==> u[he] in {'/', '?', '#'}
    requires forall i :: he <= i < pe ==> u[i] !in {'?', '#'}
    requires pe < |u| ==> u[pe] in {'?', '#'}
    ensures ParseUrl(u) == UrlParts(Some(u[..k]), Some(u[k + 3..he]), u[he..pe])
  {
    SkipUntilIs(u, 0, {':', '/', '?', '#'}, k);
    assert "://" <= u[k..];
    SkipUntilIs(u, k + 3, {'/', '?', '#'}, he);
    var host := u[k + 3..he];
    assert forall i :: 0 <= i < |host| ==> host[i] == u[k + 3 + i];
    PlainHost(host);
    SkipUntilIs(u, he, {'?', '#'}, pe);
  }

  /** An authority without `@` or `:` is all host. */
  lemma PlainHost(host: string)
    requires forall i :: 0 <= i < |host| ==> host[i] != '@' && host[i] != ':'
    ensures HostOf(host) == host
  {
    assert '@' !in host;
    SkipUntilIs(host, 0, {':'}, |host|);
    assert host[0..|host|] == host;
  }

  /** An absolute URL is split into its scheme, its host and its path. */
  lemma ParseAbsoluteUrl(u: string, scheme: string, host: string, path: string, tail: string)
    requires u == scheme + "://" + host + path + tail
    requires AbsoluteParts(scheme, host, path)
    requires tail == [] || tail[0] == '?' || tail[0] == '#'
    ensures ParseUrl(u) == UrlParts(Some(scheme), Some(host), path)
  {
    var k := |scheme|;
    var a := k + 3;
    var he := a + |host|;
    var pe := he + |path|;
    assert u[..k] == scheme && u[k..a] == "://" && u[a..he] == host && u[he..pe] == path && u[pe..] == tail;
    assert forall i :: 0 <= i < k ==> u[i] == scheme[i];
    assert forall i :: a <= i < he ==> u[i] == host[i - a];
    assert he < |u| ==> u[he] == (path + tail)[0];
    assert forall i :: he <= i < pe ==> u[i] == path[i - he];
    ParseUrlAt(u, k, he, pe);
  }

  /** A query that does not start with `as=` passes `CollapseAsParam` unchanged. */
  lemma PlainQueryKept(t: string, q: string)
    requires t == "?" + q && '?' !in q && !("as=" <= q)
    ensures CollapseAsParam(t) == t
  {
    assert t[1..] == q && [t[0]] + q == t;
    assert |t| >= 4 ==> t[..4] == "?" + q[..3];
  }

  /** The VK-specific steps keep a URL whose only query is a plain one. */
  lemma PlainQueryUrlKept(u: string, x: string, q: string)
    requires u == x + "?" + q && '?' !in x && '&' !in u
    requires q != [] && '?' !in q && '\n' !in q && !("as=" <= q)
    ensures DropFinalQuestionMark(CollapseAsParam(DropFromBu(u))) == u
  {
    var t := "?" + q;
    AppendAssoc(x, "?", q);
    CollapseAsPlainPrefix(x, t);
    PlainQueryKept(t, q);
    assert u[|u| - 1] == q[|q| - 1];
    DropFinalQuestionMarkKeeps(u);
  }

  /** A URL over 500 characters keeps only its scheme, host and path. */
  lemma LongUrlKeepsBase(u: string, scheme: string, host: string, path: string, q: string)
    requires u == scheme + "://" + host + path + "?" + q
    requires AbsoluteParts(scheme, host, path)
    requires '&' !in u && q != [] && '?' !in q && '\n' !in q && !("as=" <= q)
    requires |u| > MaxImageUrlLength
    ensures CleanImageUrl(Some(u)) == Some(scheme + "://" + host + path)
  {
    var x := scheme + "://" + host + path;
    assert '?' !in x;
    PlainQueryUrlKept(u, x, q);
    AppendAssoc(x, "?", q);
    ParseAbsoluteUrl(u, scheme, host, path, "?" + q);
  }

  /** A short URL loses its `?as=<v>` query altogether. */
  lemma ShortUrlDropsAsParam(base: string, tag: string, v: string)
    requires tag == "?as="
    requires '?' !in base && '&' !in base && v != [] && '&' !in v
    requires |base| + 4 + |v| <= MaxImageUrlLength
    ensures CleanImageUrl(Some(base + tag + v)) == Some(base)
  {
    var u := base + tag + v;
    assert '&' !in u && u != "" && u != "0";
    CollapseAsRewrites(base, tag, v, []);
    assert u + [] == u && CollapseAsParam([]) == [];
    assert base + "?" + [] == base + "?";
    DropFinalQuestionMarkEnds(base);
  }

  /** A short URL whose only query is one plain parameter, other than `as=`, comes back unchanged. */
  lemma ShortUrlKeepsPlainQuery(x: string, q: string)
    requires '?' !in x && '&' !in x && '&' !in q
    requires q != [] && '?' !in q && '\n' !in q && !("as=" <= q)
    requires |x| + 1 + |q| <= MaxImageUrlLength
    ensures CleanImageUrl(Some(x + "?" + q)) == Some(x + "?" + q)
  {
    var u := x + "?" + q;
    assert u[|x|] == '?';
    assert '&' !in u && u != "" && u != "0";
    PlainQueryUrlKept(u, x, q);
  }
}

=== FILE: posts.dfy ===
/**
 * The shape of a VK `wall.get` item as the `news:fetch` command (pars.php)
 * reads it. Only the fields the command reads are kept. A string field the
 * item lacks reads as "" (every use goes through PHP `empty()` or a pattern,
 * which treat an absent value and "" alike); an attachment's missing `link`,
 * `video` or `photo` object reads as one whose fields are all absent.
 */
module Posts {
  import opened Wrappers

  /** One entry of an image size list: `url` may be absent, an absent `width` counts as 0. */
  datatype Size = Size(url: Option<string>, width: int)

  /**
   * An attachment, by its `type`. `photo` of a link and `sizes` of a photo,
   * and `image` of a video, are `None` when the item does not carry them.
   */
  datatype Attachment =
    | Link(url: string, title: string, description: string, photo: Option<seq<Size>>)
    | Photo(sizes: Option<seq<Size>>)
    | Video(title: string, description: string, image: Option<seq<Size>>)
    | Other

  /**
   * A wall post: `copyHistory` holds the reposted posts, `markedAsAds` the
   * `marked_as_ads` flag (0 when absent).
   */
  datatype Post = Post(
    id: int,
    ownerId: int,
    date: int,
    text: string,
    attachments: seq<Attachment>,
    copyHistory: seq<Post>,
    markedAsAds: int)
}

=== FILE: records.dfy ===
/**
 * What `processZenRepost` and `processVkPost` (pars.php) decide for one post:
 * skip it, or write a news record under a key `(external_id, source)`; the
 * manual-edit rule applied when the record is stored; and the mapping of VK
 * API error codes done by `handleVkError`.
 */
module Records {
  import opened Wrappers
  import opened Strings
  import opened Normalizer
  import opened Posts
  import opened Search
  import opened Extractor
  import opened Classifier

  datatype Source = Vk | Zen

  /** The store's key: `updateOrCreate` matches on `external_id` and `source`. */
  datatype NewsKey = NewsKey(externalId: string, source: Source)

  /**
   * A stored news record. `date` is the post's Unix timestamp; its rendering
   * as `Y-m-d H:i:s` is not part of this model.
   */
  datatype NewsRecord = NewsRecord(
    source: Source,
    title: string,
    content: string,
    excerpt: string,
    image: Option<string>,
    link: string,
    date: int,
    isManual: bool)

  datatype SkipReason = ZenContentInVkPost | AdPost | EmptyPost | EmptyZenContent | ManuallyEdited

  /** What a post leads to before the store is consulted. */
  datatype Decision = Skip(reason: SkipReason) | Write(key: NewsKey, record: NewsRecord)

  /** What happened to a post once the store was consulted. */
  datatype Outcome = Skipped(reason: SkipReason) | Saved(key: NewsKey)

  const ExcerptLength: nat := 200

  /** The post's permalink `https://vk.com/wall{owner_id}_{id}`. */
  function VkLink(p: Post): (r: string)
    ensures "https://vk.com/wall" <= r
    ensures 'z' !in r
    ensures !Empty(r) && !Occurs(r, "dzen.ru")
  {
    var r := "https://vk.com/wall" + Decimal(p.ownerId) + "_" + Decimal(p.id);
    NotOccursMissingChar(r, "dzen.ru", 1);
    r
  }

  /** Two fields joined by `_` split back apart when neither holds `_`. */
  lemma SplitAtUnderscore(a: string, b: string, a2: string, b2: string)
    requires '_' !in a && '_' !in b && '_' !in a2 && '_' !in b2
    requires a + "_" + b == a2 + "_" + b2
    ensures a == a2 && b == b2
  {
    var r := a + "_" + b;
    assert forall i :: 0 <= i < |a| ==> r[i] == a[i] && r[i] != '_';
    assert forall i :: 0 <= i < |a2| ==> r[i] == a2[i] && r[i] != '_';
    assert r[|a|] == '_' && r[|a2|] == '_';
    assert a == r[..|a|] == a2;
    assert b == r[|a| + 1..] == b2;
  }

  /** The permalink names its post: distinct owner or post ids give distinct links. */
  lemma VkLinkNamesPost(p: Post, q: Post)
    ensures VkLink(p) == VkLink(q) ==> p.ownerId == q.ownerId && p.id == q.id
  {
    if VkLink(p) == VkLink(q) {
      VkLinkTail(p);
      VkLinkTail(q);
      SplitAtUnderscore(Decimal(p.ownerId), Decimal(p.id), Decimal(q.ownerId), Decimal(q.id));
      DecimalInjective(p.ownerId, q.ownerId);
      DecimalInjective(p.id, q.id);
    }
  }

  /** After its fixed prefix, the permalink is the two ids joined by `_`, neither holding `_`. */
  lemma VkLinkTail(p: Post)
    ensures |VkLink(p)| >= 19 && VkLink(p)[19..] == Decimal(p.ownerId) + "_" + Decimal(p.id)
    ensures '_' !in Decimal(p.ownerId) && '_' !in Decimal(p.id)
  {
    var a, b := Decimal(p.ownerId), Decimal(p.id);
    AppendAssoc("https://vk.com/wall", a, "_");
    AppendAssoc("https://vk.com/wall", a + "_", b);
    assert |"https://vk.com/wall"| == 19;
  }

  // ----------------------------------------------------------- processZenRepost

  /**
   * The content of a Zen post's source post: its cleaned text, else the text
   * of its first link attachment with a title or description.
   */
  function ZenContent(src: Post): (r: string)
    ensures IsClean(r)
    ensures !Empty(CleanText(src.text)) ==> r == CleanText(src.text)
    ensures Empty(CleanText(src.text)) ==> r == TextFromLinkAttachment(src)
  {
    var text := CleanText(src.text);
    if Empty(text) then TextFromLinkAttachment(src) else text
  }

  /**
   * The second search `processZenRepost` makes when `getZenUrl` gave nothing
   * truthy: the first Zen URL in the non-empty text, normalized.
   */
  function ZenUrlInText(src: Post): (r: Option<string>)
    ensures r.Some? ==> !Empty(src.text) && IsNormalized(r.value)
    ensures !Empty(src.text) ==> forall k :: IsFirst(TextUrls(src.text), IsZenUrl, k) ==> r == Some(NormalizeZenUrl(TextUrls(src.text)[k]))
    ensures Empty(src.text) || NoneSatisfy(TextUrls(src.text), IsZenUrl) ==> r.None?
  {
    if Empty(src.text) then None
    else match FirstWhere(TextUrls(src.text), IsZenUrl)
      case Some(k) => Some(NormalizeZenUrl(TextUrls(src.text)[k]))
      case None => None
  }

  /**
   * The link of a Zen record: the truthy `getZenUrl` of the source post, else
   * the first Zen URL of its text once normalized if that is truthy, else the
   * permalink of the fetched post (not of the source post).
   */
  function ZenLink(p: Post, src: Post): (r: string)
    ensures !Empty(r)
    ensures !Occurs(r, "dzen.ru")
    ensures Truthy(ZenUrl(src)) ==> r == ZenUrl(src).value
    ensures !Truthy(ZenUrl(src)) && Truthy(ZenUrlInText(src)) ==> r == ZenUrlInText(src).value
    ensures !Truthy(ZenUrl(src)) && !Truthy(ZenUrlInText(src)) ==> r == VkLink(p)
  {
    var fromSource := ZenUrl(src);
    if Truthy(fromSource) then fromSource.value
    else
      var fromText := ZenUrlInText(src);
      if Truthy(fromText) then fromText.value
      else VkLink(p)
  }

  /** The external id of a Zen record: "zen_" followed by the hash of its link. */
  function ZenExternalId(link: string, md5: string -> string): (id: string)
    ensures "zen_" <= id
  {
    "zen_" + md5(link)
  }

  /**
   * `processZenRepost` up to the store: skip when the source post yields no
   * content; otherwise a `zen` record keyed by the hash of its link.
   */
  function ZenDecision(p: Post, md5: string -> string): (d: Decision)
    ensures d.Skip? <==> Empty(ZenContent(ZenSource(p)))
    ensures d.Skip? ==> d.reason == EmptyZenContent
    ensures d.Write? ==> d.key == NewsKey(ZenExternalId(d.record.link, md5), Zen)
    ensures d.Write? ==> d.record.source == Zen && !d.record.isManual && d.record.date == p.date
    ensures d.Write? ==> d.record.content == ZenContent(ZenSource(p)) && d.record.link == ZenLink(p, ZenSource(p))
    ensures d.Write? ==> d.record.excerpt == Truncate(d.record.content, ExcerptLength)
    ensures d.Write? ==> d.record.title == GenerateTitle(d.record.content, ZenSource(p))
    ensures d.Write? ==> d.record.image == CleanImageUrl(BestImage(ZenSource(p)))
  {
    var src := ZenSource(p);
    var text := ZenContent(src);
    if Empty(text) then Skip(EmptyZenContent)
    else
      var link := ZenLink(p, src);
      Write(NewsKey(ZenExternalId(link, md5), Zen),
        NewsRecord(Zen, GenerateTitle(text, src), text, Truncate(text, ExcerptLength),
          CleanImageUrl(BestImage(src)), link, p.date, false))
  }

  // -------------------------------------------------------------- processVkPost

  /** The content of a VK post: its cleaned text, else the text of its attachments. */
  function VkContent(p: Post): (r: string)
    ensures IsClean(r)
    ensures !Empty(CleanText(p.text)) ==> r == CleanText(p.text)
    ensures Empty(CleanText(p.text)) ==> r == TextFromAttachments(p)
  {
    var text := CleanText(p.text);
    if Empty(text) then TextFromAttachments(p) else text
  }

  /**
   * The title of a VK record: a truthy link title, else the generated title.
   * A non-empty text always gets a non-empty title.
   */
  function VkTitle(text: string, p: Post): (r: string)
    ensures Truthy(TitleFromLinkAttachment(p)) ==> IsClean(r) && r == TitleFromLinkAttachment(p).value
    ensures !Truthy(TitleFromLinkAttachment(p)) ==> r == GenerateTitle(text, p)
    ensures text != "" ==> r != ""
  {
    GenerateTitleNonEmpty(text, p);
    var linkTitle := TitleFromLinkAttachment(p);
    if Truthy(linkTitle) then linkTitle.value else GenerateTitle(text, p)
  }

  /**
   * `processVkPost` up to the store: skip Zen content, ads, and posts with
   * neither content nor attachments; otherwise a `vk` record keyed by the
   * post id.
   */
  function VkDecision(p: Post): (d: Decision)
    ensures IsZenRepost(p) ==> d == Skip(ZenContentInVkPost)
    ensures !IsZenRepost(p) && p.markedAsAds == 1 ==> d == Skip(AdPost)
    ensures !IsZenRepost(p) && p.markedAsAds != 1 && Empty(VkContent(p)) && p.attachments == [] ==> d == Skip(EmptyPost)
    ensures d.Write? <==> !IsZenRepost(p) && p.markedAsAds != 1 && (!Empty(VkContent(p)) || p.attachments != [])
    ensures d.Write? ==> d.key == NewsKey(Decimal(p.id), Vk)
    ensures d.Write? ==> d.record.source == Vk && !d.record.isManual && d.record.date == p.date && d.record.link == VkLink(p)
    ensures d.Write? ==> d.record.content == VkContent(p) && d.record.title == VkTitle(d.record.content, p)
    ensures d.Write? ==> d.record.excerpt == Truncate(d.record.content, ExcerptLength)
    ensures d.Write? ==> d.record.image == CleanImageUrl(BestImage(p))
  {
    if IsZenRepost(p) then Skip(ZenContentInVkPost)
    else if p.markedAsAds == 1 then Skip(AdPost)
    else
      var text := VkContent(p);
      if Empty(text) && p.attachments == [] then Skip(EmptyPost)
      else
        Write(NewsKey(Decimal(p.id), Vk),
          NewsRecord(Vk, VkTitle(text, p), text, Truncate(text, ExcerptLength),
            CleanImageUrl(BestImage(p)), VkLink(p), p.date, false))
  }

  /** The branch the fetch loop sends a post to. */
  function Decide(p: Post, md5: string -> string): (d: Decision)
    ensures IsZenRepost(p) ==> d == ZenDecision(p, md5)
    ensures !IsZenRepost(p) ==> d == VkDecision(p)
  {
    if IsZenDispatch(p) then ZenDecision(p, md5) else VkDecision(p)
  }

  /** Zen keys and VK keys never share an external id: a decimal id does not start with "zen_". */
  lemma ExternalIdsDisjoint(p: Post, q: Post, md5: string -> string)
    ensures ZenDecision(p, md5).Write? && VkDecision(q).Write? ==>
      ZenDecision(p, md5).key.externalId != VkDecision(q).key.externalId
  {
    var id := Decimal(q.id);
    assert id[0] == '-' || '0' <= id[0] <= '9';
    assert !("zen_" <= id);
  }

  // --------------------------------------------------------------- the store

  /**
   * `updateOrCreate` behind the manual-edit rule: a write whose key holds a
   * record with `is_manual` set changes nothing; any other write puts its
   * record under its key.
   */
  function Commit(news: map<NewsKey, NewsRecord>, d: Decision): (r: (map<NewsKey, NewsRecord>, Outcome))
    ensures forall k :: k in news && news[k].isManual ==> k in r.0 && r.0[k] == news[k]
    ensures news.Keys <= r.0.Keys
    ensures forall k :: k in news && (d.Skip? || k != d.key) ==> r.0[k] == news[k]
    ensures d.Skip? ==> r == (news, Skipped(d.reason))
    ensures d.Write? && d.key in news && news[d.key].isManual ==> r == (news, Skipped(ManuallyEdited))
    ensures r.1.Saved? <==> d.Write? && !(d.key in news && news[d.key].isManual)
    ensures r.1.Saved? ==> r.1.key == d.key && r.0 == news[d.key := d.record]
  {
    match d
    case Skip(reason) => (news, Skipped(reason))
    case Write(key, record) =>
      if key in news && news[key].isManual then (news, Skipped(ManuallyEdited))
      else (news[key := record], Saved(key))
  }

  // ------------------------------------------------------------ handleVkError

  /** `VK_ERRORS`: the messages for the error codes the command knows. */
  const VkErrors: map<int, string> := map[
    5 := "Invalid token",
    6 := "Too many requests",
    15 := "Access denied",
    30 := "Profile is private",
    100 := "Invalid parameter",
    113 := "Invalid user ID",
    200 := "Access denied"]

  /** The code whose errors make the command notify the administrator. */
  const InvalidTokenCode := 5

  const AdminNotice := "Необходимо обновить VK токен"

  /** What `handleVkError` reports: the error line and the notice sent to the administrator, if any. */
  datatype ErrorReport = ErrorReport(message: string, notice: Option<string>)

  /**
   * `handleVkError`: "VK API Error [code]: message", where the message comes
   * from `VK_ERRORS` and, for other codes, from `error_msg`; code 5 also
   * notifies the administrator.
   */
  function HandleVkError(code: int, errorMsg: string): (r: ErrorReport)
    ensures "VK API Error [" <= r.message
    ensures code in VkErrors ==> r.message == "VK API Error [" + Decimal(code) + "]: " + VkErrors[code]
    ensures code !in VkErrors ==> r.message == "VK API Error [" + Decimal(code) + "]: " + errorMsg
    ensures r.notice.Some? <==> code == InvalidTokenCode
    ensures r.notice.Some? ==> r.notice.value == AdminNotice
  {
    var message := if code in VkErrors then VkErrors[code] else errorMsg;
    ErrorReport("VK API Error [" + Decimal(code) + "]: " + message,
      if code == InvalidTokenCode then Some(AdminNotice) else None)
  }

  /** For a known code the upstream message plays no part. */
  lemma KnownCodeIgnoresUpstream(code: int, m1: string, m2: string)
    requires code in VkErrors
    ensures HandleVkError(code, m1) == HandleVkError(code, m2)
  {
  }
}

=== FILE: scenarios.dfy ===
/**
 * Whole-post examples of the `news:fetch` command (pars.php): a plain VK
 * post, a post linking a Zen article, an advertising post, and the
 * invalid-token error envelope.
 */
module Scenarios {
  import opened Wrappers
  import opened Strings
  import opened Normalizer
  import opened Posts
  import opened Search
  import opened Extractor
  import opened Classifier
  import opened Records
  import opened Fetcher

  /**
   * A plain post without attachments or reposts whose text is already clean,
   * holds no URL, and has no first sentence of title length, is stored with
   * its text as title (it has at most 100 characters), content and excerpt.
   */
  lemma PlainTextRecord(p: Post)
    requires p.attachments == [] && p.copyHistory == [] && p.markedAsAds != 1
    requires IsClean(p.text) && !Empty(p.text) && ':' !in p.text
    requires !SentenceFits(p.text) && |p.text| <= 100
    ensures VkDecision(p) == Write(NewsKey(Decimal(p.id), Vk), NewsRecord(Vk, p.text, p.text, p.text, None, VkLink(p), p.date, false))
  {
    PlainTextParts(p);
  }

  lemma PlainTextParts(p: Post)
    requires p.attachments == [] && p.copyHistory == []
    requires IsClean(p.text) && !Empty(p.text) && ':' !in p.text
    requires !SentenceFits(p.text) && |p.text| <= 100
    ensures !IsZenRepost(p) && VkContent(p) == p.text && GenerateTitle(p.text, p) == p.text
  {
    CleanTextFixpoint(p.text);
    PlainTextNotZen(p);
  }

  lemma PlainTextNotZen(p: Post)
    requires p.attachments == [] && p.copyHistory == [] && ':' !in p.text
    ensures !IsZenRepost(p)
  {
    NoUrlsWithoutColon(p.text, 0);
    assert !PointsToZen(p);
  }

  /**
   * The post "Hello world. Extra." with no attachments. Its first sentence
   * "Hello world." has only 12 characters, too few for a title, so the title
   * is the whole text, which is also the content and the excerpt.
   */
  lemma PlainPostRecord(p: Post, text: string)
    requires text == "Hello world. Extra."
    requires p.text == text && p.attachments == [] && p.copyHistory == [] && p.markedAsAds == 0
    ensures VkDecision(p) == Write(NewsKey(Decimal(p.id), Vk), NewsRecord(Vk, text, text, text, None, VkLink(p), p.date, false))
  {
    HelloWorldIsClean(text);
    HelloWorldSentenceTooShort(text);
    PlainTextRecord(p);
  }

  lemma HelloWorldIsClean(text: string)
    requires text == "Hello world. Extra."
    ensures IsClean(text) && ':' !in text && !Empty(text) && |text| <= 100
  {
  }

  lemma HelloWorldSentenceTooShort(text: string)
    requires text == "Hello world. Extra."
    ensures FirstSentence(text) == "Hello world." && !SentenceFits(text)
  {
    assert CutsAt(text, '.', 11);
  }

  /**
   * A post without text or reposts whose only attachment is a Zen link with a
   * clean title longer than 15 characters becomes a `zen` record: the title
   * is title and content, the normalized url is the link, and the id hashes
   * that link.
   */
  lemma ZenLinkRecord(p: Post, url: string, title: string, md5: string -> string)
    requires p.text == "" && p.copyHistory == []
    requires p.attachments == [Link(url, title, "", None)]
    requires IsZenUrl(url) && !Empty(NormalizeZenUrl(url))
    requires IsClean(title) && 15 < |title| <= 200
    ensures Decide(p, md5) == Write(
      NewsKey("zen_" + md5(NormalizeZenUrl(url)), Zen),
      NewsRecord(Zen, title, title, title, None, NormalizeZenUrl(url), p.date, false))
  {
    ZenLinkIsZen(p, url, title);
    ZenLinkTitle(p, url, title);
  }

  lemma ZenLinkIsZen(p: Post, url: string, title: string)
    requires p.copyHistory == [] && p.attachments == [Link(url, title, "", None)]
    requires IsZenUrl(url)
    ensures IsZenRepost(p) && ZenSource(p) == p && ZenUrl(p) == Some(NormalizeZenUrl(url))
  {
    assert IsZenLink(p.attachments[0]);
    assert IsZenRepost(p);
  }

  lemma ZenLinkTitle(p: Post, url: string, title: string)
    requires p.text == "" && p.attachments == [Link(url, title, "", None)]
    requires IsClean(title) && 15 < |title| <= 200
    ensures TextFromLinkAttachment(p) == title && GenerateTitle(title, p) == title
    ensures NoneSatisfy(p.attachments, CarriesImage)
  {
    CleanTextFixpoint(title);
    assert TextFromLinkAttachment(p) == title;
    assert LongCleanLinkTitle(p.attachments[0]);
  }

  /**
   * A post whose only attachment links `https://dzen.ru/media/id/abc?utm_source=share`
   * under the title "Zen Weekly Digest" becomes a `zen`
   * record linking `https://zen.yandex.ru/media/id/abc`, with the link title
   * as title and content, under the hash of the normalized link.
   */
  lemma ZenLinkPostRecord(p: Post, path: string, title: string, md5: string -> string)
    requires path == "/media/id/abc"
    requires title == "Zen Weekly Digest"
    requires p.text == "" && p.copyHistory == []
    requires p.attachments == [Link("https://" + "dzen.ru" + path + "?utm_source=share", title, "", None)]
    ensures Decide(p, md5) == Write(
      NewsKey("zen_" + md5("https://" + "zen.yandex.ru" + path), Zen),
      NewsRecord(Zen, title, title, title, None, "https://" + "zen.yandex.ru" + path, p.date, false))
  {
    var url := "https://" + "dzen.ru" + path + "?utm_source=share";
    SharedLinkIsZen(url, path + "?utm_source=share");
    NormalizeSharedMirrorLink(path);
    HeadlineIsClean(title);
    ZenLinkRecord(p, url, title, md5);
  }

  lemma SharedLinkIsZen(url: string, rest: string)
    requires url == "https://" + "dzen.ru" + rest
    ensures IsZenUrl(url)
  {
    assert url[8..15] == "dzen.ru";
    OccursCIAt(url, "dzen.ru", 8);
  }

  lemma HeadlineIsClean(title: string)
    requires title == "Zen Weekly Digest"
    ensures IsClean(title) && 15 < |title| <= 200
  {
  }

  /** An advertising post outside the Zen branch changes nothing in the store. */
  lemma AdPostSkipped(news: Store, p: Post, md5: string -> string)
    requires p.markedAsAds == 1 && p.attachments == [] && p.copyHistory == [] && ':' !in p.text
    ensures Commit(news, Decide(p, md5)) == (news, Skipped(AdPost))
  {
    NoUrlsWithoutColon(p.text, 0);
    AdPostLeavesStore(news, p, md5);
  }

  /** Error code 5 reports "Invalid token", whatever the upstream message, and notifies the administrator. */
  lemma InvalidTokenReport(upstream: string)
    ensures HandleVkError(5, upstream) == ErrorReport("VK API Error [5]: Invalid token", Some(AdminNotice))
  {
    assert Digits(5) == [DigitChar(5)] && DigitChar(5) == '5';
    assert Decimal(5) == "5";
    assert 5 in VkErrors && VkErrors[5] == "Invalid token";
    assert "VK API Error [" + "5" + "]: " + "Invalid token" == "VK API Error [5]: Invalid token";
  }
}

=== FILE: search.dfy ===
/**
 * The first-match search every extractor of pars.php performs: a `foreach`
 * over a list that returns at the first element passing a test.
 */
module Search {
  import opened Wrappers

  /** `i` is the index of the first element of `s` that passes `P`. */
  predicate IsFirst<T>(s: seq<T>, P: T -> bool, i: int) {
    0 <= i < |s| && P(s[i]) && forall j :: 0 <= j < i ==> !P(s[j])
  }

  /** No element of `s` passes `P`. */
  predicate NoneSatisfy<T>(s: seq<T>, P: T -> bool) {
    forall j :: 0 <= j < |s| ==> !P(s[j])
  }

  /** The index where a left-to-right scan of `s` first finds an element passing `P`. */
  function FirstWhere<T>(s: seq<T>, P: T -> bool): (r: Option<nat>)
    ensures r.Some? ==> IsFirst(s, P, r.value)
    ensures r.None? <==> NoneSatisfy(s, P)
  {
    if s == [] then None
    else if P(s[0]) then Some(0)
    else match FirstWhere(s[1..], P)
      case Some(i) => Some(i + 1)
      case None => None
  }

  /** There is only one first index, and the scan finds it. */
  lemma FirstWhereFinds<T>(s: seq<T>, P: T -> bool)
    ensures forall i :: IsFirst(s, P, i) ==> FirstWhere(s, P) == Some(i)
  {
    forall i | IsFirst(s, P, i)
      ensures FirstWhere(s, P) == Some(i)
    {
      var r := FirstWhere(s, P);
      assert !NoneSatisfy(s, P);
      assert IsFirst(s, P, r.value);
    }
  }
}

=== FILE: strings.dfy ===
/**
 * String helpers shared by the normalizers, the extractors and the classifier.
 * Strings are sequences of code points, so lengths and indices are the
 * `mb_strlen` / `mb_substr` / `mb_strpos` character counts.
 */
module Strings {
  import opened Wrappers

  /** PHP `empty()` on a string value: true for "" and for "0" (an absent field reads as ""). */
  predicate Empty(s: string) {
    s == "" || s == "0"
  }

  /** PHP truthiness of a `?string`: neither null, nor "", nor "0". */
  predicate Truthy(u: Option<string>) {
    u.Some? && !Empty(u.value)
  }

  /** The characters PCRE's `\s` matches without the `u` modifier. */
  const Whitespace: set<char> := {' ', '\t', '\n', '\U{B}', '\U{C}', '\r'}

  /** The characters PHP's `trim` removes by default. */
  const TrimChars: set<char> := {' ', '\t', '\n', '\r', '\0', '\U{B}'}

  /** The first index at or after `from` holding one of `stops`, or `|s|`. */
  function SkipUntil(s: string, from: nat, stops: set<char>): (r: nat)
    requires from <= |s|
    ensures from <= r <= |s|
    ensures forall i :: from <= i < r ==> s[i] !in stops
    ensures r < |s| ==> s[r] in stops
    decreases |s| - from
  {
    if from == |s| || s[from] in stops then from else SkipUntil(s, from + 1, stops)
  }

  /** The first index at or after `from` holding none of `skip`, or `|s|`. */
  function SkipWhile(s: string, from: nat, skip: set<char>): (r: nat)
    requires from <= |s|
    ensures from <= r <= |s|
    ensures forall i :: from <= i < r ==> s[i] in skip
    ensures r < |s| ==> s[r] !in skip
    decreases |s| - from
  {
    if from == |s| || s[from] !in skip then from else SkipWhile(s, from + 1, skip)
  }

  /** The end of `s` once a trailing run of `chars` is dropped (PHP `rtrim` with a character list). */
  function TrailingStart(s: string, chars: set<char>): (r: nat)
    ensures r <= |s|
    ensures forall i :: r <= i < |s| ==> s[i] in chars
    ensures r > 0 ==> s[r - 1] !in chars
  {
    if s == [] || s[|s| - 1] !in chars then |s| else TrailingStart(s[..|s| - 1], chars)
  }

  /** `mb_strpos(s, c)`: the index of the first occurrence of `c`. */
  function IndexOf(s: string, c: char): (r: Option<nat>)
    ensures r.Some? ==> r.value < |s| && s[r.value] == c && c !in s[..r.value]
    ensures r.None? ==> c !in s
  {
    if s == [] then None
    else if s[0] == c then Some(0)
    else match IndexOf(s[1..], c)
      case Some(i) => (assert s[..i + 1] == [s[0]] + s[1..][..i]; Some(i + 1))
      case None => None
  }

  /** `mb_strrpos(s, c)`: the index of the last occurrence of `c`. */
  function LastIndexOf(s: string, c: char): (r: Option<nat>)
    ensures r.Some? ==> r.value < |s| && s[r.value] == c && c !in s[r.value + 1..]
    ensures r.None? ==> c !in s
  {
    if s == [] then None
    else if s[|s| - 1] == c then Some(|s| - 1)
    else
      var r := LastIndexOf(s[..|s| - 1], c);
      assert r.Some? ==> s[r.value + 1..] == s[..|s| - 1][r.value + 1..] + [s[|s| - 1]];
      assert r.None? ==> s == s[..|s| - 1] + [s[|s| - 1]];
      r
  }

  /** `p` occurs somewhere in `s` (case-sensitive, as `str_replace` matches). */
  predicate Occurs(s: string, p: string)
    decreases |s|
  {
    p <= s || (s != [] && Occurs(s[1..], p))
  }

  /** ASCII lower-casing, the only case folding a PCRE `/i` pattern applies without `u`. */
  function Lower(c: char): char {
    if 'A' <= c <= 'Z' then (c as int + 32) as char else c
  }

  /** `s` starts with the lower-case word `p`, ignoring ASCII case. */
  predicate StartsWithCI(s: string, p: string) {
    |p| <= |s| && forall i :: 0 <= i < |p| ==> Lower(s[i]) == p[i]
  }

  /** The lower-case word `p` occurs somewhere in `s`, ignoring ASCII case. */
  predicate OccursCI(s: string, p: string)
    decreases |s|
  {
    StartsWithCI(s, p) || (s != [] && OccursCI(s[1..], p))
  }

  lemma {:induction false} OccursCIAt(s: string, p: string, k: nat)
    requires k <= |s| && StartsWithCI(s[k..], p)
    ensures OccursCI(s, p)
    decreases k
  {
    if k > 0 {
      assert s[1..][k - 1..] == s[k..];
      OccursCIAt(s[1..], p, k - 1);
    }
  }

  /** An occurrence inside a prefix is an occurrence in the whole string. */
  lemma {:induction false} OccursInPrefix(s: string, t: string, p: string)
    requires s <= t
    ensures Occurs(s, p) ==> Occurs(t, p)
    decreases |s|
  {
    if s != [] && !(p <= s) {
      OccursInPrefix(s[1..], t[1..], p);
    }
  }

  lemma PrefixHolds(s: string, p: string, j: nat)
    requires j < |p|
    ensures p <= s ==> p[j] in s
  {
    if p <= s {
      assert s[j] == p[j];
    }
  }

  /** A pattern with a character that never appears in `s` does not occur in `s`. */
  lemma {:induction false} NotOccursMissingChar(s: string, p: string, j: nat)
    requires j < |p| && p[j] !in s
    ensures !Occurs(s, p)
    decreases |s|
  {
    PrefixHolds(s, p, j);
    if s != [] {
      NotOccursMissingChar(s[1..], p, j);
    }
  }

  /** An occurrence starting at index `k` is an occurrence. */
  lemma {:induction false} OccursAt(s: string, p: string, k: nat)
    requires k + |p| <= |s| && s[k..k + |p|] == p
    ensures Occurs(s, p)
    decreases k
  {
    if k == 0 {
      assert p <= s;
    } else {
      assert s[1..][k - 1..k - 1 + |p|] == p;
      OccursAt(s[1..], p, k - 1);
    }
  }

  /** An occurrence in a suffix is an occurrence in any longer suffix. */
  lemma {:induction false} OccursFromLater(s: string, i: nat, e: nat)
    requires i <= e <= |s|
    ensures forall p :: Occurs(s[e..], p) ==> Occurs(s[i..], p)
    decreases e - i
  {
    if i < e {
      OccursFromLater(s, i + 1, e);
      assert s[i..][1..] == s[i + 1..];
    }
  }

  /** Case-sensitive occurrence of a lower-case word is case-insensitive occurrence. */
  lemma {:induction false} OccursIsOccursCI(s: string, p: string)
    requires forall i :: 0 <= i < |p| ==> Lower(p[i]) == p[i]
    ensures Occurs(s, p) ==> OccursCI(s, p)
    decreases |s|
  {
    if p <= s {
      assert forall i :: 0 <= i < |p| ==> s[i] == p[i];
    } else if s != [] {
      OccursIsOccursCI(s[1..], p);
    }
  }

  /** A word occurs only in a string at least as long. */
  lemma {:induction false} OccursCILength(s: string, p: string)
    ensures OccursCI(s, p) ==> |p| <= |s|
    decreases |s|
  {
    if s != [] {
      OccursCILength(s[1..], p);
    }
  }

  lemma AppendAssoc(a: string, b: string, c: string)
    ensures a + (b + c) == (a + b) + c
  {
  }

  /** `s` with every character of `drop` removed, the others kept in order. */
  function Without(s: string, drop: set<char>): (r: string)
    ensures |r| <= |s|
    decreases |s|
  {
    if s == [] then []
    else (if s[0] in drop then [] else [s[0]]) + Without(s[1..], drop)
  }

  /** Removing characters distributes over concatenation. */
  lemma {:induction false} WithoutAppend(a: string, b: string, drop: set<char>)
    ensures Without(a + b, drop) == Without(a, drop) + Without(b, drop)
    decreases |a|
  {
    if a == [] {
      assert a + b == b;
    } else {
      assert (a + b)[0] == a[0] && (a + b)[1..] == a[1..] + b;
      WithoutAppend(a[1..], b, drop);
      var h := if a[0] in drop then [] else [a[0]];
      assert Without(a + b, drop) == h + (Without(a[1..], drop) + Without(b, drop));
      AppendAssoc(h, Without(a[1..], drop), Without(b, drop));
    }
  }

  /** A string made only of dropped characters leaves nothing. */
  lemma {:induction false} WithoutAll(s: string, drop: set<char>)
    requires forall i :: 0 <= i < |s| ==> s[i] in drop
    ensures Without(s, drop) == []
    decreases |s|
  {
    if s != [] {
      WithoutAll(s[1..], drop);
    }
  }

  /** A string holding none of the dropped characters is kept whole. */
  lemma {:induction false} WithoutNone(s: string, drop: set<char>)
    requires forall i :: 0 <= i < |s| ==> s[i] !in drop
    ensures Without(s, drop) == s
    decreases |s|
  {
    if s != [] {
      WithoutNone(s[1..], drop);
    }
  }

  /** Dropped characters all around a slice leave what the slice leaves. */
  lemma WithoutAroundSlice(s: string, lo: nat, hi: nat, drop: set<char>)
    requires lo <= hi <= |s|
    requires forall i :: 0 <= i < lo ==> s[i] in drop
    requires forall i :: hi <= i < |s| ==> s[i] in drop
    ensures Without(s[lo..hi], drop) == Without(s, drop)
  {
    var lead, mid, trail := s[..lo], s[lo..hi], s[hi..];
    assert s == (lead + mid) + trail;
    WithoutAppend(lead + mid, trail, drop);
    WithoutAppend(lead, mid, drop);
    WithoutAll(lead, drop);
    WithoutAll(trail, drop);
  }

  function DigitChar(d: nat): (c: char)
    requires d < 10
    ensures '0' <= c <= '9' && c as int - '0' as int == d
  {
    ('0' as int + d) as char
  }

  /** The value of a decimal digit. */
  function DigitValue(c: char): (d: nat)
    requires '0' <= c <= '9'
    ensures d < 10
  {
    c as int - '0' as int
  }

  predicate AllDigits(s: string) {
    forall i :: 0 <= i < |s| ==> '0' <= s[i] <= '9'
  }

  /** The number a non-empty string of decimal digits denotes. */
  function ParseDigits(s: string): (n: nat)
    requires s != [] && AllDigits(s)
    decreases |s|
  {
    if |s| == 1 then DigitValue(s[0])
    else ParseDigits(s[..|s| - 1]) * 10 + DigitValue(s[|s| - 1])
  }

  function Digits(n: nat): (r: string)
    ensures r != [] && forall i :: 0 <= i < |r| ==> '0' <= r[i] <= '9'
  {
    if n < 10 then [DigitChar(n)] else Digits(n / 10) + [DigitChar(n % 10)]
  }

  /** Reading back the digits of `n` gives `n`. */
  lemma {:induction false} DigitsRoundTrip(n: nat)
    ensures ParseDigits(Digits(n)) == n
  {
    if n >= 10 {
      var r := Digits(n);
      assert r == Digits(n / 10) + [DigitChar(n % 10)];
      assert r[..|r| - 1] == Digits(n / 10);
      DigitsRoundTrip(n / 10);
    }
  }

  /** PHP's decimal rendering of an integer in string interpolation. */
  function Decimal(n: int): (r: string)
    ensures r != [] && (r[0] == '-' || '0' <= r[0] <= '9')
    ensures forall i :: 0 <= i < |r| ==> r[i] == '-' || '0' <= r[i] <= '9'
    ensures r[0] == '-' <==> n < 0
    ensures r[0] == '-' ==> |r| > 1 && AllDigits(r[1..])
    ensures r[0] != '-' ==> AllDigits(r)
  {
    if n < 0 then
      assert ("-" + Digits(-n))[1..] == Digits(-n);
      "-" + Digits(-n)
    else Digits(n)
  }

  /** The integer a rendering of the form `Decimal` produces denotes. */
  function ParseDecimal(s: string): int
    requires s != [] && (s[0] == '-' ==> |s| > 1 && AllDigits(s[1..])) && (s[0] != '-' ==> AllDigits(s))
  {
    if s[0] == '-' then -(ParseDigits(s[1..]) as int) else ParseDigits(s)
  }

  /** The rendering reads back as the integer it renders. */
  lemma DecimalRoundTrip(n: int)
    ensures ParseDecimal(Decimal(n)) == n
  {
    if n < 0 {
      assert Decimal(n)[1..] == Digits(-n);
      DigitsRoundTrip(-n);
    } else {
      DigitsRoundTrip(n);
    }
  }

  /** Distinct integers render differently. */
  lemma DecimalInjective(m: int, n: int)
    ensures Decimal(m) == Decimal(n) ==> m == n
  {
    DecimalRoundTrip(m);
    DecimalRoundTrip(n);
  }
}

=== FILE: wrappers.dfy ===
/** Optional values: PHP's `null` next to a value. */
module Wrappers {

  datatype Option<+T> = None | Some(value: T)
}
